=== FILE: README.md ===
# multipred-eeg-experiment, modelled in Dafny

This project models the deterministic core of a multisensory prediction experiment run under EEG and eye tracking. A participant sees a leading Gabor patch and hears a leading tone. Each predicts the trailing stimulus with a weighted probability. In the test phase the participant judges whether the trailing patch deviates in orientation. An adaptive 3-down-1-up staircase sets the size of that deviation.

The model covers:

- **Staircase** (`staircase.dfy`): the staircase controller. The step size comes from the inversion count. One error raises the orientation difference, unless that would pass the hard-coded ceiling of 30. Three correct answers in a row lower it, with no floor. Direction reversals are counted.
- **Persistence** (`persistence.dfy`): the per-block data files, as a map from path to the entries in that file. It covers the save of a block and the resume of the staircase from the last record of the previous test block.
- **TestBlock** (`test_block.dfy`): a test block as a fold over its trials. The block is seeded from the initial state or from the resume, and the staircase advances only on target trials. The deviation shown is 0 or plus or minus the current difference. Every record stores the state after its trial.
- **Scoring** (`scoring.dfy`): scoring of test, learning and explicit responses once the pressed key is known.
- **Trials** (`trials.dfy`): the weighted visual x auditory cross-product and its Fisher-Yates shuffle.
- **Session** (`session.dfy`): the live `setup`'s participant id, its alternating key mappings, and its default phase and block.
- **EyeLink** (`eyelink.dfy`): parts of the eye-tracker wrapper:
  - the screen-coordinate conversions;
  - the constructor's validation, and the mock's text colour;
  - `transfer_edf`'s file name and `send_status`;
  - the default merge in `send_tracking_settings`, and the command sequence it sends, including Python `%`-formatting errors.
- **Display** (`display.dfy`): the tracker display's palette packing and its key translation table.
- Helpers: **Decimal** (`decimal.dfy`) models Python's integer rendering, and **Wrappers** (`wrappers.dfy`) holds `Option` and `Result`.

Randomness becomes parameters:

- the mapping coin flips are booleans;
- the shuffle's draws are an oracle `pick`;
- the sign of a deviation is a boolean per trial.

Configuration that the constants file does not define is also passed in: the initial staircase and the step schedule (`INITIAL_STAIRCASE`, `STAIRCASE_PARAMS`) and the phase quotas (`PHASES`). pylink key codes are a `Codes` record.

## Model

| member | source | states |
|---|---|---|
| Staircase.StepIndex | stimuli/experiment/responses.py:137-144 | the schedule index is one of 0..3; it is 0 exactly when the inversion count is below the first threshold, and it is 3 only once the third threshold is reached |
| Staircase.StepFor | stimuli/experiment/responses.py:137-144 | the step used is always one of the first four configured step sizes |
| Staircase.StepIndexCountsThresholds | stimuli/experiment/responses.py:137-144 | for ascending thresholds, the index picked by the elif chain is the number of thresholds the inversion count has reached |
| Staircase.Advance | stimuli/experiment/responses.py:120-176 | the returned step size is the one chosen from the incoming inversion count; inversions never drop, grow by at most 1, and grow exactly when the direction reverses; the streak is reset whenever the difference moves; a difference at or under 30 stays at or under 30; a streak in 0..2 stays in 0..2 |
| Staircase.IncorrectBelowCeiling | stimuli/experiment/responses.py:146-152 | an error that stays within 30 raises the difference by exactly the step, empties the streak, sets the direction to up, and adds one inversion exactly when the previous direction was down |
| Staircase.IncorrectAboveCeiling | stimuli/experiment/responses.py:146-154 | an error that would pass 30 leaves difference, streak, direction and inversions all unchanged (no clamping) |
| Staircase.CorrectWithinStreak | stimuli/experiment/responses.py:155-166 | a correct answer that does not complete three only lengthens the streak by one |
| Staircase.CorrectCompletingStreak | stimuli/experiment/responses.py:155-162 | the third correct answer in a row lowers the difference by the step, empties the streak, sets the direction to down, and adds one inversion exactly when the previous direction was up |
| Staircase.NoFloor | stimuli/experiment/responses.py:157-159 | a lowering step can take the difference below zero |
| Staircase.ThreeDown | stimuli/experiment/responses.py:155-166 | from an empty streak, three correct answers lower the difference by exactly one step and leave the streak empty with direction down |
| Staircase.RunKeepsCeiling | stimuli/experiment/responses.py:146-159 | over any sequence of outcomes, with non-negative steps, a difference at or under 30 stays at or under 30 |
| Staircase.RunKeepsHistory | stimuli/experiment/responses.py:155-166 | over any sequence of outcomes the streak stays in 0..2 |
| Staircase.RunInversionsMonotone | stimuli/experiment/responses.py:146-162 | over n outcomes the inversion count grows by between 0 and n |
| Staircase.RunStepSizeConfigured | stimuli/experiment/responses.py:137-173 | after at least one update, the stored step size is one of the configured sizes |
| Staircase.RunAppend | stimuli/experiment/phases.py:343-347 | running the staircase over two outcome sequences one after the other equals running it over their concatenation |
| Staircase.CeilingScenario | stimuli/experiment/responses.py:146-162 | from 27 with step 6, two errors leave the difference at 27 and three correct answers then bring it to 21 |
| Persistence.LoadLastStaircase | stimuli/experiment/responses.py:179-202 | reads `data/{id}/test_block{block-1}.json`; FileNotFound exactly when the file is absent; otherwise the staircase fields of the last entry, when that entry is a trial record |
| Persistence.SaveBlockAsWritten | stimuli/experiment/responses.py:206-220 | only the block's file changes; a new file gets the records; an existing file gets the whole block appended as one nested element |
| Persistence.SaveBlock | stimuli/experiment/responses.py:206-220 | the corrected save: only the block's file changes; the block's records are appended to whatever the file held, in order |
| Persistence.ResumeReadsSavedPath | stimuli/experiment/responses.py:184-211 | the resume of block b reads exactly the path the save of test block b-1 writes |
| Persistence.SaveThenResume | stimuli/experiment/responses.py:185-220 | after a non-empty test block is saved with the corrected save, resuming the next block returns the staircase of its last record |
| Persistence.FirstSaveThenResume | stimuli/experiment/responses.py:218-220 | as written, the first save of a test block is resumable |
| Persistence.RerunBreaksResume | stimuli/experiment/responses.py:212-217 | as written, saving a test block whose file exists makes the next resume fail (its last entry is a list, not a record) |
| Persistence.BlockPathsDistinct | stimuli/experiment/responses.py:211 | different block numbers of one phase and participant are saved to different files |
| TestBlock.TestInstructions | stimuli/experiment/phases.py:241-245 | block 1 shows the start text; any other block shows the continue text with the remaining count `test_blocks - block` |
| TestBlock.Seed | stimuli/experiment/phases.py:261-269 | block 1 starts from the initial staircase; every other block starts from the resume of the previous test block, failing as it fails |
| TestBlock.Deviation | stimuli/experiment/phases.py:320-326 | a non-target trial shows no deviation; a target trial shows plus or minus the current difference, with the sign the random choice gives |
| TestBlock.Thread | stimuli/experiment/phases.py:350-361 | one record per trial, numbered consecutively, carrying that trial's target and outcome |
| TestBlock.TestPhase | stimuli/experiment/phases.py:239-361 | an empty block yields no records and cannot fail; otherwise it fails exactly when seeding fails, with the same error, and yields one record per trial with `num_trial` equal to the index |
| TestBlock.Presented | stimuli/experiment/phases.py:320-326 | one presented deviation per trial, 0 on every non-target trial; deviations are shown, not saved in the records |
| TestBlock.ThreadMatchesReplay | stimuli/experiment/phases.py:343-361 | record i carries the staircase after trials 0..i |
| TestBlock.PresentedMatchesReplay | stimuli/experiment/phases.py:320-326 | trial i presents the deviation computed from the staircase before trial i, i.e. before that trial's update |
| TestBlock.ThreadSteps | stimuli/experiment/phases.py:320-361 | each target record advances the previous record's staircase by its outcome; each non-target record repeats it; the deviation presented comes from the state before the update |
| TestBlock.ReplayIsRunOverTargets | stimuli/experiment/phases.py:343-347 | threading a block equals running the staircase over the outcomes of its target trials only |
| TestBlock.LastRecordIsRun | stimuli/experiment/phases.py:343-361 | the last record of a block carries the staircase run over the block's target outcomes |
| TestBlock.BlockKeepsCeiling | stimuli/experiment/phases.py:343-357 | if the seed is at or under 30 and the steps are non-negative, every record's difference is at or under 30 |
| TestBlock.TestPhaseAndSave | stimuli/experiment/phases.py:364-365 | the block then `save_block_data` as written: it fails exactly when the block fails, with its error; only the block's file changes; a new file holds exactly the block's records; an existing file keeps all its entries and gains the block as one nested element after them |
| TestBlock.TestPhaseAndSaveCorrected | stimuli/experiment/phases.py:364-365 | the block then the corrected save: same failure behaviour; only the block's file changes; it keeps all its earlier entries, followed by the block's records, one entry each |
| TestBlock.NextBlockResumes | stimuli/experiment/phases.py:261-365 | as written, after a block whose file did not exist is run and saved, the next block is seeded with exactly the staircase of its last record |
| TestBlock.RerunBlocksNextBlock | stimuli/experiment/phases.py:261-365 | as written, after a block whose file already existed is run and saved again, the next test block fails at its first trial with the nested-list error |
| TestBlock.NextBlockResumesCorrected | stimuli/experiment/phases.py:261-365 | with the corrected save, after any run of a block the next block is seeded with the staircase of its last record |
| TestBlock.TwoBlocksAreOneRun | stimuli/experiment/phases.py:261-365 | as written, when block 1 is run once, blocks 1 and 2 together act as one staircase run over both blocks' target outcomes; nothing is reset between blocks |
| Scoring.TestResponse | stimuli/experiment/responses.py:58-78 | a timeout scores 0 in red; otherwise the outcome is 1 exactly for "normal" on a non-target or "deviant" on a target; green exactly when the outcome is 1; the label is the key's mapping or "NA" |
| Scoring.TestScoringDiscriminates | stimuli/experiment/responses.py:62-64 | with keys labelled "normal" and "deviant", exactly one of the two keys is right for each target value, and a timeout is wrong |
| Scoring.TestNeedsNormalOrDeviant | stimuli/experiment/responses.py:62-69 | a key labelled neither "normal" nor "deviant" always scores 0 in red |
| Scoring.LearningResponseAsWritten | stimuli/experiment/responses.py:21-43 | the outcome is 1 exactly when the written condition holds, including its clause that accepts any label other than "frequent" on an expected trial; green exactly on 1 |
| Scoring.LearningResponse | stimuli/experiment/responses.py:21-43 | the outcome is 1 exactly when the pressed label is the one the visual prediction calls for (neutral, frequent or infrequent); green exactly on 1 |
| Scoring.LearningAsWrittenMisScoresExpected | stimuli/experiment/responses.py:25-29 | as written, on an expected trial the "frequent" key scores 0 while "infrequent" and "neutral" score 1; the corrected scoring reverses this |
| Scoring.LearningAgreesOffExpected | stimuli/experiment/responses.py:25-29 | off expected trials the written and the corrected learning scoring agree |
| Scoring.LearningOneRightKey | stimuli/experiment/responses.py:25-31 | with three distinct labels, exactly one key is right on every neutral or predictive learning trial |
| Scoring.ExplicitResponseOf | stimuli/experiment/responses.py:94-116 | the outcome is 1 exactly when a key was pressed, the queried modality's prediction is "EXP" or "UEX", and the key's label is the one that prediction calls for ("frequent" or "infrequent"); otherwise 0; the timeout flag is set exactly when no key was pressed; the label is the key's mapping or "NA" |
| Scoring.ExplicitNeutralScoresZero | stimuli/experiment/responses.py:97-108 | a query whose prediction is neither "EXP" nor "UEX" (a neutral stimulus) scores 0 whatever key is pressed |
| Scoring.ExplicitMatchesLearning | stimuli/experiment/responses.py:97-108 | on a predictive queried modality, the explicit outcome equals the learning outcome for that modality's prediction |
| Trials.VisualPairs | stimuli/experiment/setup.py:59-82 | six pairs; leads 90 and 0 each have one expected pair of weight 3 and one unexpected pair of weight 1, to different trailing orientations; the neutral lead has two equally weighted pairs; no pair repeats |
| Trials.AuditoryPairs | stimuli/experiment/setup.py:84-103 | the same structure for tones 1000 and 1600 and the neutral tone |
| Trials.PairWeights | stimuli/experiment/setup.py:62-103 | both pair lists weigh 12 in total, whichever mapping was drawn |
| Trials.CrossProductSize | stimuli/experiment/setup.py:106-119 | the cross-product has (total visual weight) x (total auditory weight) trials |
| Trials.CrossProductCount | stimuli/experiment/setup.py:107-119 | before shuffling, each visual/auditory combination occurs exactly (visual weight) x (auditory weight) times |
| Trials.CrossProductOnlyCombinations | stimuli/experiment/setup.py:107-119 | every trial of the cross-product combines one listed visual pair with one listed auditory pair |
| Trials.Shuffle | stimuli/experiment/setup.py:122 | the shuffle returns a permutation of its input, whatever the random draws |
| Trials.GenerateTrials | stimuli/experiment/setup.py:13-123 | the generated list is a permutation of the weighted cross-product and has 144 trials |
| Trials.GeneratedCounts | stimuli/experiment/setup.py:107-122 | in every generated list each combination occurs exactly weight-product times |
| Session.ParticipantId | stimuli/experiment/setup.py:259 | the id starts with "sub-"; 0 to 9 get exactly two characters after it, the first a '0'; from 10 on no leading zero is added; a negative number is written with its sign |
| Session.ParticipantIdRoundTrip | stimuli/experiment/setup.py:259 | for a non-negative number the characters after "sub-" are digits that read back as the number |
| Session.NegativeParticipantId | stimuli/experiment/setup.py:259 | a negative number keeps its sign after "sub-", followed by the digits of its magnitude |
| Session.ParticipantIdOneDigit | stimuli/experiment/setup.py:259 | a participant from 0 to 9 gets "sub-0" followed by its digit, e.g. "sub-07" |
| Session.BlockMapping | stimuli/experiment/setup.py:293 | every block gets one of the two key mappings |
| Session.PhaseMappings | stimuli/experiment/setup.py:291-303 | a phase of n blocks gets n mappings, block i the one its index and the coin flip select |
| Session.MappingsSwapLeftRight | stimuli/experiment/setup.py:286-287 | both mappings send SPACE to "neutral" and differ only by swapping LEFT and RIGHT |
| Session.MappingsAlternate | stimuli/experiment/setup.py:291-303 | consecutive blocks get different mappings, and blocks two apart get the same one |
| Session.FirstBlockMapping | stimuli/experiment/setup.py:288-293 | the coin flip decides the first block's mapping (True gives it the second mapping) |
| Session.SetupMappingsNeverScoreTest | stimuli/experiment/setup.py:286-298 | the mappings given to test blocks carry no "normal" or "deviant" label, so the test scoring gives 0 for every key |
| Session.DefaultSelection | stimuli/experiment/setup.py:321-333 | learning is offered only while learning is unfinished; test only once learning is done and test is not; an unfinished explicit phase only once both are done |
| Session.DefaultIsFirstUnfinished | stimuli/experiment/setup.py:321-333 | the default selection equals the first unfinished phase in the order learning, test, explicit, with block = completed + 1; when all are finished, explicit with block = its quota |
| Session.DefaultBlockInRange | stimuli/experiment/setup.py:321-333 | the offered learning or test block is completed + 1 and within the quota |
| Decimal.NatToStringRoundTrip | stimuli/experiment/responses.py:185 | the decimal digits Python writes for a number read back as that number |
| Decimal.NatToStringInjective | stimuli/experiment/responses.py:185 | two numbers never get the same decimal rendering |
| Decimal.ZeroPadKeepsValue | stimuli/experiment/setup.py:259 | zero-padding a digit string keeps it a digit string of the same value |
| Decimal.ZeroPad | stimuli/experiment/setup.py:259 | the `0` flag pads with zeros on the left up to the width and no further; a string already that long is unchanged |
| Decimal.Format02SingleDigit | stimuli/experiment/setup.py:259 | every single digit formatted with `02d` gains exactly one leading zero |
| Decimal.Format02OneDigit | stimuli/experiment/setup.py:259 | 7 formatted with `02d` is "07" |
| Decimal.Format02TwoDigits | stimuli/experiment/setup.py:259 | 12 formatted with `02d` is "12" |
| EyeLink.TopLeftToCenter | stimuli/experiment/eyelinker.py:439-466 | the result names the same screen location in the centred frame, y up without the flag and y down with it; `centerToTopLeft` with the opposite flag undoes it |
| EyeLink.CenterToTopLeft | stimuli/experiment/eyelinker.py:469-498 | the result names the same screen location in the top-left frame, reading the centred y as pointing down without the flag and up with it (partner: `CenterRoundTrip`) |
| EyeLink.TopLeftToCenterExample | stimuli/experiment/eyelinker.py:458-460 | (100,100) on 1920x1080 goes to (-860, 440) |
| EyeLink.CenterToTopLeftExample | stimuli/experiment/eyelinker.py:488-490 | (100,100) on 1920x1080 goes to (1060, 640) |
| EyeLink.FlipOnlyY | stimuli/experiment/eyelinker.py:462-466 | the flip negates only the y result; x is the same either way |
| EyeLink.CenterRoundTrip | stimuli/experiment/eyelinker.py:469-498 | `topLeftToCenter` with the opposite flag undoes `centerToTopLeft` |
| EyeLink.SameFlagMirrorsY | stimuli/experiment/eyelinker.py:462-497 | converting there and back with the same flag maps y to H - y and keeps x |
| EyeLink.LastFour | stimuli/experiment/eyelinker.py:91 | Python's `s[-4:]`: the last four characters, or all of a shorter string, which is a suffix of s |
| EyeLink.EdfExtensionIsSuffix | stimuli/experiment/eyelinker.py:91 | the extension test holds exactly when the name has at least four characters and ends in ".edf" |
| EyeLink.ConnectedTextColor | stimuli/experiment/eyelinker.py:107-113 | a given text colour is kept; otherwise black exactly when every window colour component is at least 0.5, else white |
| EyeLink.Connect | stimuli/experiment/eyelinker.py:85-113 | construction succeeds exactly for a name of at most 12 characters ending in ".edf" and an eye LEFT, RIGHT or BOTH; otherwise the first failing check is reported, in the source's order; on success the file is closed, the wrapper is not a mock and keeps the name and eye |
| EyeLink.Mock | stimuli/experiment/eyelinker.py:607-625 | the mock is marked as a mock with the file closed; its text colour is (-1,-1,-1) exactly on a light background, else (1,1,1) |
| EyeLink.TransferName | stimuli/experiment/eyelinker.py:223-232 | a missing or empty name falls back to the EDF name; the name used must end in ".edf", else the extension error is raised |
| EyeLink.ConnectedTransfers | stimuli/experiment/eyelinker.py:228-232 | a successfully constructed wrapper can transfer its file under its own name |
| EyeLink.SendStatus | stimuli/experiment/eyelinker.py:388-399 | the warning is printed exactly for 80 or more characters; the quoted command is sent either way |
| EyeLink.StatusRoundTrip | stimuli/experiment/eyelinker.py:396-399 | the status can be read back from the command between the prefix and the closing quote |
| EyeLink.Merge | stimuli/experiment/eyelinker.py:153-178 | no settings gives the defaults; given settings override key by key, every default not overridden is kept, and the keys are the union |
| EyeLink.Truncate | stimuli/experiment/eyelinker.py:207 | `%i` on a float keeps the integer part, truncating toward zero for either sign |
| EyeLink.Convert | stimuli/experiment/eyelinker.py:180-212 | `%i` renders an integer as itself, truncates a float, and raises TypeError on text or None; `%s` accepts any value that is not a tuple and writes text as itself, an integer or float as its number and None as "None"; `%f %f` succeeds exactly on a numeric pair and writes those two numbers; the preamble concatenation succeeds exactly on text and writes it between double quotes; every failure is a TypeError |
| EyeLink.Render | stimuli/experiment/eyelinker.py:180-212 | a fixed command renders as given; a formatted command whose key is missing raises KeyError; one whose key is present succeeds exactly when converting the key's value succeeds, sending the prefix with the converted value, and otherwise raises the conversion's error |
| EyeLink.Execute | stimuli/experiment/eyelinker.py:180-212 | every command before the first failing one is sent, in order, and nothing after it; the transcript is complete exactly when no step failed, and a failure is the first failing step's error |
| EyeLink.ExecuteCompleteIffAllRender | stimuli/experiment/eyelinker.py:180-212 | the command sequence completes exactly when every step formats |
| EyeLink.ActiveEyeOnlyForOneEye | stimuli/experiment/eyelinker.py:186-187 | `active_eye` is sent exactly when the eye is LEFT or RIGHT |
| EyeLink.BinocularIffBoth | stimuli/experiment/eyelinker.py:192-195 | `binocular_enabled` is always sent, YES exactly when the eye is BOTH |
| EyeLink.PreambleOnlyWhenGiven | stimuli/experiment/eyelinker.py:202-203 | the preamble command is sent exactly when the merged settings give a preamble |
| EyeLink.DefaultsRender | stimuli/experiment/eyelinker.py:153-212 | under the defaults every command formats, for any eye |
| EyeLink.DefaultMotionStep | stimuli/experiment/eyelinker.py:166-207 | for one eye under the defaults there are 14 commands; the tenth is the motion threshold, rendered as 0 through `%i` and as 0.15 as given |
| EyeLink.DefaultTranscript | stimuli/experiment/eyelinker.py:153-212 | for one eye under the defaults all 14 commands are sent |
| EyeLink.SendTrackingSettingsAsWritten | stimuli/experiment/eyelinker.py:145-212 | as written, command i sent is the rendering of plan step i under the merged settings; all planned commands are sent exactly when every step formats; otherwise sending stops at the first failing step, whose error is reported |
| EyeLink.DefaultMotionThresholdTruncated | stimuli/experiment/eyelinker.py:166-207 | as written, the default motion threshold 0.15 reaches the tracker as 0 |
| EyeLink.SendTrackingSettings | stimuli/experiment/eyelinker.py:145-212 | with the threshold sent as given: command i sent is the rendering of plan step i under the merged settings; all are sent exactly when every step formats; otherwise sending stops at the first failing step, whose error is reported |
| EyeLink.DefaultMotionThresholdKept | stimuli/experiment/eyelinker.py:166-207 | with the threshold sent as given, the default 0.15 reaches the tracker unchanged |
| EyeLink.StringConversionKeepsNumbers | stimuli/experiment/eyelinker.py:180-204 | `%s` of a number writes that number |
| EyeLink.IntegerConversionTruncates | stimuli/experiment/eyelinker.py:189-211 | `%i` of a number writes its truncation, which equals the number exactly when the number is whole |
| Display.OrLowBits | stimuli/experiment/PsychosCustomDisplay.py:187 | or-ing a value shifted by k bits with a value below 2^k is their sum; the fields do not overlap |
| Display.SetImagePalette | stimuli/experiment/PsychosCustomDisplay.py:181-187 | the new palette has one entry per index up to the shortest of r, g, b; entry i packs r[i], g[i], b[i] |
| Display.PackIsSum | stimuli/experiment/PsychosCustomDisplay.py:187 | when r and g are bytes (b may be any size) the packed entry is b*65536 + g*256 + r |
| Display.UnpackPack | stimuli/experiment/PsychosCustomDisplay.py:187 | for byte components, byte extraction recovers r, g and b from the entry |
| Display.PackInjective | stimuli/experiment/PsychosCustomDisplay.py:187 | distinct byte colours pack to distinct entries |
| Display.PaletteRoundTrip | stimuli/experiment/PsychosCustomDisplay.py:181-187 | every palette entry built from byte components unpacks to its components |
| Display.KeyTableAliases | stimuli/experiment/PsychosCustomDisplay.py:116-122 | 'num_add' and 'equal' map to 43, 'num_subtract' and 'minus' to 45, 'space' to 32, 'backspace' to 8, 'tab' to 9 |
| Display.AsciiLetters | stimuli/experiment/PsychosCustomDisplay.py:245 | Python's `string.ascii_letters`: the 52 letters a-z then A-Z |
| Display.SingleCharInLetters | stimuli/experiment/PsychosCustomDisplay.py:245 | a one-character name passes the substring test exactly when it is an ASCII letter |
| Display.GetInputKey | stimuli/experiment/PsychosCustomDisplay.py:234-254 | no key gives no event; a table name gives its code; a name not in the table that fails the letters test gives the junk code; a single letter gives its code point; exactly the other names that pass the test ("" and multi-letter runs) fail in `ord`; every event has modifier 256 |
| Display.LetterKeyCode | stimuli/experiment/PsychosCustomDisplay.py:245-252 | a single ASCII letter maps to its character code |
| Display.OtherCharIsJunk | stimuli/experiment/PsychosCustomDisplay.py:243-252 | a single character that is not a letter and not in the table maps to the junk code |
| Display.OrdRejectsNonCharacters | stimuli/experiment/PsychosCustomDisplay.py:245-247 | the empty name and "ab" pass the substring test and make `ord` fail |
| Display.UnknownNameIsJunk | stimuli/experiment/PsychosCustomDisplay.py:243-252 | an unlisted key name such as "lshift" maps to the junk code |

## Left out

- Rendering, sound and timing. The model leaves out drawing, window flips, instruction screens, Gabor and tone synthesis, the inter-trial interval, reaction times and timestamps. They have no bearing on the staircase or the scoring.
- Key waiting. The pressed key (or a timeout) is an input to the scoring functions. The waiting itself and its time limits are device I/O.
- The EEG trigger port (`stimuli/experiment/triggers.py`). It is hardware I/O.
- JSON files and directories. The data folder is a map from path to entries. Creating directories, the dialogs, and writing the participant info file are left out. The `print` after a save is also left out.
- Counting completed blocks by listing the participant folder. The counts are inputs to `Session.DefaultSelection`.
- Randomness. The mapping coin flips, the shuffle's draws and the deviation sign are parameters. The model does not reproduce Python's generator or seeding.
- The connection factory `EyeLinker` and the tracker hardware. This covers `initialize_graphics`, `initialize_tracker`, recording, calibration, `check_sacc`, `check_fix`, `offline_mode_start` and the mock's reflection-built stubs. These are pylink I/O or live samples.
- The factory's retry prompt. It compares the pressed key against 'R', 'Q' and 'D', but that logic sits in the I/O loop.
- Drawing helpers of the custom display. Only the palette and the key table are computed values; everything else draws on the window.
- `INITIAL_STAIRCASE`, `STAIRCASE_PARAMS` and the `PHASES` quotas. They are not part of this model and are parameters instead.
- The test loop's sharing of `INITIAL_STAIRCASE`. The model uses value semantics, so block 1 never mutates its seed. In the program, line 266 of `stimuli/experiment/phases.py` aliases the global and line 345 adds `last_outcome` to it. This changes nothing a single run can observe.
- The record's extra fields, and the stored `last_outcome`. A `TrialRecord` keeps the index, target, outcome and staircase. The trial's stimuli, timestamps, screen info and response text are not kept. The presented deviation is never saved by the program; the model returns it separately (`TestBlock.Presented`). `last_outcome` is an input of `Staircase.Advance` and not part of `State`.
- The argument count of the response functions. `phases.py` calls them with trigger arguments that `responses.py` in this version of the repository does not accept. The scoring is modelled from `responses.py`.
- The `"target"` field of a trial. `generate_trials` builds trials without it, yet the test loop reads `trial["target"]` at line 320 of `stimuli/experiment/phases.py`. The files are version-skewed here too; the model takes the target as part of each `TrialInput`.
- The test block's key mappings. The mappings `setup` assigns carry only "frequent", "infrequent" and "neutral", so the current `test_response` scores every test answer 0 with them (`Session.SetupMappingsNeverScoreTest`), and the staircase could then only rise. This is part of the same version skew between `setup.py`, `phases.py` and `responses.py`, not a defect of one function, so it is stated as a lemma rather than as a finding.
- Staircase numbers. `ori_diff` and the step sizes are exact `real`s, where Python computes in IEEE doubles. The ceiling test at line 147 of `stimuli/experiment/responses.py` can decide differently for sums that are not exact in binary (29.7 + 0.3, say). The rounding drift of the repeated `+=` and `-=`, which is saved to JSON, is not modelled either.
- EyeLink.TopLeftToCenter: screen coordinates are exact `real`s, where lines 462-466 and 493-497 of `stimuli/experiment/eyelinker.py` compute in IEEE doubles. So the round trip (`EyeLink.CenterRoundTrip`) and the mirror `H - y` (`EyeLink.SameFlagMirrorsY`) are exact in the model. In Python they hold only when every intermediate value is exact in binary, as with integer pixel positions on a screen of integer size; `0.1` on a 1920-wide screen comes back as `0.10000000000002274`.
- The factory's text colour. `EyeLinker` passes the named colour `COLOR` as `text_color`, but `Color` is an integer triple, so a colour given by name is not representable; `EyeLink.ConnectedTextColor` covers the triples and the `None` case.
- Staircase.Advance: requires a schedule with at least four step sizes and three thresholds. With fewer, the source raises IndexError, and that error path is not modelled.
- Staircase.Advance: keeps the ceiling only for non-negative steps. A negative step can lower the difference on an error.
- `last_direction` values other than "up" and "down". They are modelled as `Unset`, which behaves the same in every branch.
- The first `setup` in `stimuli/experiment/setup.py` (lines 126-241). The second definition shadows it.
- Dialog parsing. The dialogs' `format=int` conversion is not modelled; the participant number and block are integers.
- Float rendering in commands. Numbers reach the tracker as values (`Integer`, `Decimal`, a pair) rather than as Python's `repr` text.
- Display.SetImagePalette: components are natural numbers, so Python's bitwise operators on negative components are not modelled.
- The trial count: the generator's docstring promises 100 trials (weights summing to 10), but the weights it uses sum to 12, giving 144. The model follows the code.
- The ceiling: the code does not clamp the difference at 30. An error that would pass 30 leaves everything unchanged. The model follows the code.

## Findings

| source | as written | input that shows it | evidently intended | confidence | as-written member | corrected member |
|---|---|---|---|---|---|---|
| stimuli/experiment/responses.py:27 | on an expected ("EXP") trial a response counts as correct when its label is NOT "frequent" | key mapping LEFT=frequent, RIGHT=infrequent; trial with v_pred "EXP"; pressing LEFT scores 0, pressing RIGHT or SPACE scores 1 | the "frequent" label is correct on an expected trial, like the "infrequent" clause for "UEX" and the explicit phase's scoring | high, not executed | Scoring.LearningResponseAsWritten, Scoring.LearningAsWrittenMisScoresExpected | Scoring.LearningResponse, Scoring.LearningOneRightKey |
| stimuli/experiment/eyelinker.py:207 | the saccade motion threshold is formatted with `%i` | default settings: 0.15 is sent as `saccade_motion_threshold = 0` | the threshold reaches the tracker as 0.15 | medium, not executed | EyeLink.SendTrackingSettingsAsWritten, EyeLink.DefaultMotionThresholdTruncated | EyeLink.SendTrackingSettings, EyeLink.DefaultMotionThresholdKept |
| stimuli/experiment/responses.py:212-217 | saving to an existing file appends the whole block as one nested list | run test block 1 twice, then block 2: the last entry of `test_block1.json` is a list, so the resume cannot read the staircase | the later run's records follow the existing ones, so the last entry is the latest trial | medium, not executed | Persistence.SaveBlockAsWritten, Persistence.RerunBreaksResume, TestBlock.RerunBlocksNextBlock | Persistence.SaveBlock, Persistence.SaveThenResume, TestBlock.NextBlockResumesCorrected |

=== FILE: decimal.dfy ===
/** Decimal rendering of integers, as Python's `str(n)` and `f"{n:02d}"` produce it. */
module Decimal {

  predicate IsDigit(c: char) {
    '0' <= c <= '9'
  }

  predicate AllDigits(s: string) {
    forall i :: 0 <= i < |s| ==> IsDigit(s[i])
  }

  function DigitChar(d: nat): (c: char)
    requires d < 10
    ensures IsDigit(c)
  {
    ['0', '1', '2', '3', '4', '5', '6', '7', '8', '9'][d]
  }

  function DigitValue(c: char): (d: nat)
    requires IsDigit(c)
    ensures d < 10
  {
    (c as int - '0' as int) as nat
  }

  /** The number a string of decimal digits denotes (most significant digit first). */
  function ValueOf(s: string): nat
    requires AllDigits(s)
  {
    if |s| == 0 then 0 else 10 * ValueOf(s[..|s| - 1]) + DigitValue(s[|s| - 1])
  }

  /** Python's `str(n)` for a non-negative integer. */
  function NatToString(n: nat): (s: string)
    ensures AllDigits(s) && |s| >= 1
    ensures n >= 10 ==> s[0] != '0'
  {
    if n < 10 then [DigitChar(n)] else NatToString(n / 10) + [DigitChar(n % 10)]
  }

  /** Python's `str(n)` for any integer. */
  function IntToString(n: int): string {
    if n < 0 then "-" + NatToString(-n) else NatToString(n)
  }

  /** Left-pads `s` with '0' up to `width` characters, as the `0` flag of a format spec does. */
  function ZeroPad(s: string, width: nat): (p: string)
    ensures |p| == if |s| >= width then |s| else width
    ensures p[|p| - |s|..] == s
    ensures forall i :: 0 <= i < |p| - |s| ==> p[i] == '0'
    decreases width - |s|
  {
    if |s| >= width then s else ZeroPad("0" + s, width)
  }

  /**
   * Python's `f"{n:02d}"`. The sign counts toward the width of 2, so a negative
   * number is never padded: its sign and at least one digit already fill it.
   */
  function Format02(n: int): string {
    if n < 0 then "-" + NatToString(-n) else ZeroPad(NatToString(n), 2)
  }

  lemma DigitRoundTrip(d: nat)
    requires d < 10
    ensures DigitValue(DigitChar(d)) == d
  {
  }

  /** Reading back the digits `NatToString` writes yields the number. */
  lemma {:induction false} NatToStringRoundTrip(n: nat)
    ensures ValueOf(NatToString(n)) == n
    decreases n
  {
    DigitRoundTrip(n % 10);
    if n >= 10 {
      NatToStringRoundTrip(n / 10);
      var s := NatToString(n);
      assert s[..|s| - 1] == NatToString(n / 10);
    }
  }

  /** `NatToString` never renders two numbers the same way. */
  lemma NatToStringInjective(m: nat, n: nat)
    requires NatToString(m) == NatToString(n)
    ensures m == n
  {
    NatToStringRoundTrip(m);
    NatToStringRoundTrip(n);
  }

  /** `k` copies of the character '0'. */
  function Zeros(k: nat): (z: string)
    ensures |z| == k && forall i :: 0 <= i < k ==> z[i] == '0'
  {
    if k == 0 then "" else "0" + Zeros(k - 1)
  }

  /** Leading zeros do not change the value of a digit string. */
  lemma {:induction false} LeadingZerosKeepValue(s: string, k: nat)
    requires AllDigits(s)
    ensures AllDigits(Zeros(k) + s)
    ensures ValueOf(Zeros(k) + s) == ValueOf(s)
    decreases k
  {
    if k > 0 {
      assert Zeros(k) + s == Zeros(k - 1) + ("0" + s);
      ZeroPrefixValue(s);
      LeadingZerosKeepValue("0" + s, k - 1);
    } else {
      assert Zeros(k) + s == s;
    }
  }

  lemma {:induction false} ZeroPrefixValue(s: string)
    requires AllDigits(s)
    ensures AllDigits("0" + s)
    ensures ValueOf("0" + s) == ValueOf(s)
    decreases |s|
  {
    var t := "0" + s;
    if |s| > 0 {
      assert t[..|t| - 1] == "0" + s[..|s| - 1];
      ZeroPrefixValue(s[..|s| - 1]);
    }
  }

  /** A zero-padded rendering still denotes the same number. */
  lemma ZeroPadKeepsValue(s: string, width: nat)
    requires AllDigits(s)
    ensures AllDigits(ZeroPad(s, width))
    ensures ValueOf(ZeroPad(s, width)) == ValueOf(s)
  {
    var p := ZeroPad(s, width);
    var k := |p| - |s|;
    assert p == Zeros(k) + s;
    LeadingZerosKeepValue(s, k);
  }

  /** A one-digit number gains a leading zero. */
  lemma Format02OneDigit()
    ensures Format02(7) == "07"
  {
    assert NatToString(7) == "7";
    assert ZeroPad("7", 2) == ZeroPad("0" + "7", 2);
  }

  /** Every single digit gains exactly one leading zero. */
  lemma Format02SingleDigit(n: int)
    requires 0 <= n < 10
    ensures Format02(n) == "0" + [DigitChar(n)]
  {
    var d := [DigitChar(n)];
    assert NatToString(n) == d;
    assert ZeroPad(d, 2) == ZeroPad("0" + d, 2) == "0" + d;
  }

  /** A two-digit number is rendered unchanged. */
  lemma Format02TwoDigits()
    ensures Format02(12) == "12"
  {
    var s := NatToString(12);
    assert s == NatToString(1) + [DigitChar(2)];
    assert NatToString(1) == "1" && DigitChar(2) == '2';
    assert s == "12";
    assert ZeroPad(s, 2) == s;
  }
}

=== FILE: display.dfy ===
/**
 * The two computations of the tracker's custom display: packing the camera
 * image palette into integers, and translating a pressed key's name into the
 * key code the tracker expects.
 */
module Display {
  import opened Wrappers

  // ---------------------------------------------------------------------------
  // Bit operations on non-negative integers

  function Pow2(k: nat): (p: nat)
    ensures p >= 1
  {
    if k == 0 then 1 else 2 * Pow2(k - 1)
  }

  /** Python's `a << k` on a non-negative integer. */
  function ShiftLeft(a: nat, k: nat): nat {
    a * Pow2(k)
  }

  /** Python's `a | b` on non-negative integers, bit by bit from the lowest. */
  function Or(a: nat, b: nat): nat
    decreases a + b
  {
    if a == 0 then b
    else if b == 0 then a
    else 2 * Or(a / 2, b / 2) + (if a % 2 == 1 || b % 2 == 1 then 1 else 0)
  }

  // ---------------------------------------------------------------------------
  // Palette

  /** One palette entry, `(b << 16) | g << 8 | r`. */
  function Pack(r: nat, g: nat, b: nat): nat {
    Or(Or(ShiftLeft(b, 16), ShiftLeft(g, 8)), r)
  }

  /** The three colour components read back from an entry, one byte each. */
  datatype Rgb = Rgb(r: nat, g: nat, b: nat)

  function Unpack(e: nat): Rgb {
    Rgb(e % 256, (e / 256) % 256, e / 65536)
  }

  predicate IsByte(n: nat) {
    n < 256
  }

  /**
   * `set_image_palette`: the previous palette is dropped and the new one has an
   * entry for each index the three component lists share, as `zip` pairs them.
   */
  function SetImagePalette(r: seq<nat>, g: seq<nat>, b: seq<nat>): (pal: seq<nat>)
    ensures |pal| <= |r| && |pal| <= |g| && |pal| <= |b|
    ensures |pal| == |r| || |pal| == |g| || |pal| == |b|
    ensures forall i :: 0 <= i < |pal| ==> pal[i] == Pack(r[i], g[i], b[i])
  {
    if |r| == 0 || |g| == 0 || |b| == 0 then []
    else [Pack(r[0], g[0], b[0])] + SetImagePalette(r[1..], g[1..], b[1..])
  }

  // ---------------------------------------------------------------------------
  // Key translation

  /** The pylink key constants the table refers to; their values belong to pylink. */
  datatype Codes = Codes(
    f1: int, f2: int, f3: int, f4: int, f5: int, f6: int, f7: int, f8: int, f9: int, f10: int,
    pageUp: int, pageDown: int,
    cursorUp: int, cursorDown: int, cursorLeft: int, cursorRight: int,
    enter: int, escape: int,
    junk: int)

  /** The translation table the display builds from key names to tracker key codes. */
  function KeyTable(c: Codes): map<string, int> {
    map[
      "f1" := c.f1, "f2" := c.f2, "f3" := c.f3, "f4" := c.f4, "f5" := c.f5,
      "f6" := c.f6, "f7" := c.f7, "f8" := c.f8, "f9" := c.f9, "f10" := c.f10,
      "pageup" := c.pageUp, "pagedown" := c.pageDown,
      "up" := c.cursorUp, "down" := c.cursorDown, "left" := c.cursorLeft, "right" := c.cursorRight,
      "return" := c.enter, "escape" := c.escape,
      "num_add" := 43, "equal" := 43,
      "num_subtract" := 45, "minus" := 45,
      "backspace" := 8,   // ord('\b')
      "space" := ' ' as int,
      "tab" := '\t' as int
    ]
  }

  /** The `i`-th character of `string.ascii_letters`: 'a' to 'z', then 'A' to 'Z'. */
  function Letter(i: nat): char
    requires i < 52
  {
    if i < 26 then ('a' as int + i) as char else ('A' as int + (i - 26)) as char
  }

  /** `string.ascii_letters`. */
  function AsciiLetters(): (s: string)
    ensures |s| == 52 && forall i :: 0 <= i < 52 ==> s[i] == Letter(i)
  {
    seq(52, i requires 0 <= i < 52 => Letter(i))
  }

  predicate IsAsciiLetter(c: char) {
    ('a' <= c <= 'z') || ('A' <= c <= 'Z')
  }

  /** `needle` occurs in `haystack` starting at index `i`. */
  predicate OccursAt(needle: string, haystack: string, i: int) {
    0 <= i && i + |needle| <= |haystack| && haystack[i..i + |needle|] == needle
  }

  /** Python's `needle in haystack` on strings: a substring test, true for the empty needle. */
  predicate IsSubstring(needle: string, haystack: string) {
    exists i :: 0 <= i <= |haystack| && OccursAt(needle, haystack, i)
  }

  /** A key event as the tracker receives it: a key code and a modifier. */
  datatype KeyInput = KeyInput(key: int, modifier: int)

  /** What `ord` raises on a string that is not one character long. */
  datatype KeyError = OrdOfString(length: nat)

  /**
   * `get_input_key`: no event for no key; otherwise one event with modifier 256
   * whose code comes from the table, else from `ord` of a name found in the
   * ASCII letters, else is the junk code.
   */
  function GetInputKey(c: Codes, key: Option<string>): (r: Result<seq<KeyInput>, KeyError>)
    ensures key.None? ==> r == Success([])
    ensures key.Some? && key.value in KeyTable(c) ==> r == Success([KeyInput(KeyTable(c)[key.value], 256)])
    ensures key.Some? && key.value !in KeyTable(c) && !IsSubstring(key.value, AsciiLetters()) ==>
      r == Success([KeyInput(c.junk, 256)])
    ensures key.Some? && key.value !in KeyTable(c) && IsSubstring(key.value, AsciiLetters()) && |key.value| == 1 ==>
      r == Success([KeyInput(key.value[0] as int, 256)])
    ensures r.Failure? <==> key.Some? && key.value !in KeyTable(c)
                            && IsSubstring(key.value, AsciiLetters()) && |key.value| != 1
    ensures r.Success? ==> |r.value| == (if key.Some? then 1 else 0)
  {
    match key
    case None => Success([])
    case Some(name) =>
      if name in KeyTable(c) then Success([KeyInput(KeyTable(c)[name], 256)])
      else if IsSubstring(name, AsciiLetters()) then
        if |name| == 1 then Success([KeyInput(name[0] as int, 256)]) else Failure(OrdOfString(|name|))
      else Success([KeyInput(c.junk, 256)])
  }

  // ---------------------------------------------------------------------------
  // Lemmas

  lemma Pow2Bytes()
    ensures Pow2(8) == 256 && Pow2(16) == 65536
  {
    assert Pow2(4) == 16;
    assert Pow2(8) == 16 * Pow2(4);
    assert Pow2(12) == 16 * Pow2(8);
    assert Pow2(16) == 16 * Pow2(12);
  }

  /** A value below 2^k or-ed onto a multiple of 2^k adds: the bits do not overlap. */
  lemma {:induction false} OrLowBits(h: nat, l: nat, k: nat)
    requires l < Pow2(k)
    ensures Or(h * Pow2(k), l) == h * Pow2(k) + l
    decreases k
  {
    var x := h * Pow2(k);
    if k == 0 {
      assert l == 0;
    } else if x == 0 || l == 0 {
    } else {
      var y := h * Pow2(k - 1);
      assert x == 2 * y;
      assert x / 2 == y && x % 2 == 0;
      OrLowBits(h, l / 2, k - 1);
      assert Or(x, l) == 2 * Or(y, l / 2) + l % 2;
    }
  }

  /** With byte components an entry is `b * 65536 + g * 256 + r`. */
  lemma PackIsSum(r: nat, g: nat, b: nat)
    requires IsByte(r) && IsByte(g)
    ensures Pack(r, g, b) == b * 65536 + g * 256 + r
  {
    Pow2Bytes();
    OrLowBits(b, g * 256, 16);
    assert Or(b * 65536, g * 256) == b * 65536 + g * 256;
    OrLowBits(b * 256 + g, r, 8);
    assert (b * 256 + g) * 256 == b * 65536 + g * 256;
  }

  /** Byte components are read back unchanged from their entry. */
  lemma UnpackPack(r: nat, g: nat, b: nat)
    requires IsByte(r) && IsByte(g) && IsByte(b)
    ensures Unpack(Pack(r, g, b)) == Rgb(r, g, b)
  {
    PackIsSum(r, g, b);
    DivideByByte(b * 256 + g, r);
    DivideByByte(b, g);
    DivideByTwoBytes(b, g * 256 + r);
    assert b * 65536 + g * 256 + r == (b * 256 + g) * 256 + r == b * 65536 + (g * 256 + r);
  }

  lemma DivideByByte(q: nat, r: nat)
    requires r < 256
    ensures (q * 256 + r) / 256 == q && (q * 256 + r) % 256 == r
  {
  }

  lemma DivideByTwoBytes(q: nat, r: nat)
    requires r < 65536
    ensures (q * 65536 + r) / 65536 == q
  {
  }

  /** Distinct byte colours get distinct entries. */
  lemma PackInjective(c: Rgb, d: Rgb)
    requires IsByte(c.r) && IsByte(c.g) && IsByte(c.b)
    requires IsByte(d.r) && IsByte(d.g) && IsByte(d.b)
    requires Pack(c.r, c.g, c.b) == Pack(d.r, d.g, d.b)
    ensures c == d
  {
    UnpackPack(c.r, c.g, c.b);
    UnpackPack(d.r, d.g, d.b);
  }

  /** A palette of byte components is read back entry by entry as the components it was given. */
  lemma PaletteRoundTrip(r: seq<nat>, g: seq<nat>, b: seq<nat>, i: nat)
    requires i < |SetImagePalette(r, g, b)|
    requires IsByte(r[i]) && IsByte(g[i]) && IsByte(b[i])
    ensures Unpack(SetImagePalette(r, g, b)[i]) == Rgb(r[i], g[i], b[i])
  {
    UnpackPack(r[i], g[i], b[i]);
  }

  /** The aliases of the table: two names for 43 and for 45, and the space bar's code 32. */
  lemma KeyTableAliases(c: Codes)
    ensures KeyTable(c)["num_add"] == KeyTable(c)["equal"] == 43
    ensures KeyTable(c)["num_subtract"] == KeyTable(c)["minus"] == 45
    ensures KeyTable(c)["space"] == 32 && KeyTable(c)["backspace"] == 8 && KeyTable(c)["tab"] == 9
  {
  }

  /** Every character of the ASCII letters is a letter. */
  lemma LetterIsLetter(i: nat)
    requires i < 52
    ensures IsAsciiLetter(Letter(i))
  {
  }

  /** A one-character name is found in the ASCII letters exactly when it is a letter. */
  lemma SingleCharInLetters(ch: char)
    ensures IsSubstring([ch], AsciiLetters()) <==> IsAsciiLetter(ch)
  {
    var letters := AsciiLetters();
    if IsAsciiLetter(ch) {
      var i := if ch <= 'Z' then 26 + (ch as int - 'A' as int) else ch as int - 'a' as int;
      assert letters[i] == ch;
      assert letters[i..i + 1] == [ch];
      assert OccursAt([ch], letters, i);
    } else if IsSubstring([ch], letters) {
      var i :| 0 <= i <= |letters| && OccursAt([ch], letters, i);
      assert letters[i..i + 1][0] == letters[i];
      LetterIsLetter(i);
      assert false;
    }
  }

  /** Two consecutive characters of the ASCII letters are consecutive letters, or 'z' then 'A'. */
  lemma LettersAdjacent(i: nat)
    requires i + 1 < 52
    ensures AsciiLetters()[i + 1] as int == AsciiLetters()[i] as int + 1
         || (AsciiLetters()[i] == 'z' && AsciiLetters()[i + 1] == 'A')
  {
  }

  /** A letter names itself: its event carries the letter's code. */
  lemma LetterKeyCode(c: Codes, ch: char)
    requires IsAsciiLetter(ch)
    ensures GetInputKey(c, Some([ch])) == Success([KeyInput(ch as int, 256)])
  {
    SingleCharInLetters(ch);
  }

  /** A non-letter character outside the table gets the junk code. */
  lemma OtherCharIsJunk(c: Codes, ch: char)
    requires !IsAsciiLetter(ch) && [ch] !in KeyTable(c)
    ensures GetInputKey(c, Some([ch])) == Success([KeyInput(c.junk, 256)])
  {
    SingleCharInLetters(ch);
  }

  /** The empty name and a run of letters such as "ab" are found in the letters and make `ord` raise. */
  lemma OrdRejectsNonCharacters(c: Codes)
    ensures GetInputKey(c, Some("")) == Failure(OrdOfString(0))
    ensures GetInputKey(c, Some("ab")) == Failure(OrdOfString(2))
  {
    var letters := AsciiLetters();
    assert letters[0..0] == "";
    assert OccursAt("", letters, 0);
    assert letters[0] == 'a' && letters[1] == 'b';
    assert letters[0..2] == "ab";
    assert OccursAt("ab", letters, 0);
  }

  /** A longer name that is not a run of the letters, such as "lshift", falls back to the junk code. */
  lemma UnknownNameIsJunk(c: Codes)
    ensures GetInputKey(c, Some("lshift")) == Success([KeyInput(c.junk, 256)])
  {
    var letters := AsciiLetters();
    if IsSubstring("lshift", letters) {
      var i :| 0 <= i <= |letters| && OccursAt("lshift", letters, i);
      assert letters[i..i + 6][0] == letters[i] && letters[i..i + 6][1] == letters[i + 1];
      LettersAdjacent(i);
      assert false;
    }
  }
}

=== FILE: eyelink.dfy ===
/**
 * The eye-tracker wrapper, without the tracker: conversions between the
 * tracker's top-left pixel frame and the centred frame of the window, the
 * checks the connected wrapper makes on its EDF file name and eye, the name an
 * EDF file is transferred under, the status line, and the commands
 * `send_tracking_settings` sends for a merged settings dictionary.
 */
module EyeLink {
  import opened Wrappers

  // ---------------------------------------------------------------------------
  // Coordinate frames

  datatype Point = Point(x: real, y: real)

  /** The window size in pixels, `(width, height)`. */
  datatype Screen = Screen(width: real, height: real)

  /**
   * The top-left point `top` and the centred point `centre` name the same screen
   * location, with the centred y axis pointing up when `yUp` and down otherwise.
   */
  predicate SameLocation(top: Point, centre: Point, s: Screen, yUp: bool) {
    && centre.x == top.x - s.width / 2.0
    && centre.y == (if yUp then s.height / 2.0 - top.y else top.y - s.height / 2.0)
  }

  /**
   * `topLeftToCenter`: from the tracker frame, origin top left and y down, to
   * the frame centred on the screen with y up; `flipY` negates the new y.
   * Converting back with the opposite flag returns the point.
   */
  function TopLeftToCenter(p: Point, s: Screen, flipY: bool): (c: Point)
    ensures SameLocation(p, c, s, !flipY)
    ensures CenterToTopLeft(c, s, !flipY) == p
  {
    var y := s.height / 2.0 - p.y;
    Point(p.x - s.width / 2.0, if flipY then -y else y)
  }

  /**
   * `centerToTopLeft`: from the centred frame back to the top-left one, y negated
   * when `flipY`: without the flag the centred y axis is taken to point down.
   */
  function CenterToTopLeft(c: Point, s: Screen, flipY: bool): (p: Point)
    ensures SameLocation(p, c, s, flipY)
  {
    Point(c.x + s.width / 2.0, (if flipY then -c.y else c.y) + s.height / 2.0)
  }

  // ---------------------------------------------------------------------------
  // The connected wrapper's construction

  /** An RGB colour in the window's colour space. */
  datatype Color = Color(r: int, g: int, b: int)

  /** What the wrapper raises (`ValueError`) instead of being built. */
  datatype ConfigError =
    | FilenameTooLong(length: nat)
    | MissingEdfExtension(name: string)
    | UnknownEye(eye: string)

  /** The state of a built wrapper this model keeps. */
  datatype Tracker = Tracker(
    edfFilename: string,
    edfOpen: bool,
    eye: string,
    textColor: Color,
    mock: bool)

  /** Python's `s[-4:]`: the last four characters, or all of them when there are fewer. */
  function LastFour(s: string): (t: string)
    ensures |t| == if |s| < 4 then |s| else 4
    ensures s == s[..|s| - |t|] + t
  {
    if |s| < 4 then s else s[|s| - 4..]
  }

  predicate HasEdfExtension(name: string) {
    LastFour(name) == ".edf"
  }

  predicate ValidEye(eye: string) {
    eye == "LEFT" || eye == "RIGHT" || eye == "BOTH"
  }

  predicate AllAtLeastHalf(color: seq<real>) {
    forall i :: 0 <= i < |color| ==> color[i] >= 0.5
  }

  /** The text colour a wrapper picks: the given one, else black on a light window and white on a dark one. */
  function ConnectedTextColor(windowColor: seq<real>, textColor: Option<Color>): (c: Color)
    ensures textColor.Some? ==> c == textColor.value
    ensures textColor.None? ==> (c == Color(0, 0, 0) <==> AllAtLeastHalf(windowColor))
    ensures textColor.None? ==> (c == Color(1, 1, 1) <==> !AllAtLeastHalf(windowColor))
  {
    match textColor
    case Some(color) => color
    case None => if AllAtLeastHalf(windowColor) then Color(0, 0, 0) else Color(1, 1, 1)
  }

  /**
   * `ConnectedEyeLinker.__init__`: the file name must have at most 12 characters
   * and end in ".edf", and the eye must be LEFT, RIGHT or BOTH, checked in that
   * order; the EDF file starts closed.
   */
  function Connect(filename: string, eye: string, windowColor: seq<real>, textColor: Option<Color>)
    : (r: Result<Tracker, ConfigError>)
    ensures r.Success? <==> |filename| <= 12 && HasEdfExtension(filename) && ValidEye(eye)
    ensures |filename| > 12 ==> r == Failure(FilenameTooLong(|filename|))
    ensures |filename| <= 12 && !HasEdfExtension(filename) ==> r == Failure(MissingEdfExtension(filename))
    ensures |filename| <= 12 && HasEdfExtension(filename) && !ValidEye(eye) ==> r == Failure(UnknownEye(eye))
    ensures r.Success? ==> r.value.edfFilename == filename && r.value.eye == eye
    ensures r.Success? ==> !r.value.edfOpen && !r.value.mock
    ensures r.Success? ==> r.value.textColor == ConnectedTextColor(windowColor, textColor)
  {
    if |filename| > 12 then Failure(FilenameTooLong(|filename|))
    else if !HasEdfExtension(filename) then Failure(MissingEdfExtension(filename))
    else if !ValidEye(eye) then Failure(UnknownEye(eye))
    else Success(Tracker(filename, false, eye, ConnectedTextColor(windowColor, textColor), false))
  }

  /**
   * `MockEyeLinker.__init__`: no check on the name or the eye, and a text colour
   * of its own (the given one is ignored).
   */
  function Mock(filename: string, eye: string, backgroundColor: seq<real>): (t: Tracker)
    ensures t.mock && !t.edfOpen && t.edfFilename == filename && t.eye == eye
    ensures t.textColor == Color(-1, -1, -1) <==> AllAtLeastHalf(backgroundColor)
    ensures t.textColor == Color(1, 1, 1) <==> !AllAtLeastHalf(backgroundColor)
  {
    Tracker(filename, false, eye, if AllAtLeastHalf(backgroundColor) then Color(-1, -1, -1) else Color(1, 1, 1), true)
  }

  /**
   * `transfer_edf`: the local name is the one given, or the EDF name when none or
   * the empty string is given; it must end in ".edf".
   */
  function TransferName(edfFilename: string, newFilename: Option<string>): (r: Result<string, ConfigError>)
    ensures newFilename.Some? && newFilename.value != "" ==>
      (r.Success? <==> HasEdfExtension(newFilename.value)) && (r.Success? ==> r.value == newFilename.value)
    ensures newFilename.None? || newFilename == Some("") ==>
      (r.Success? <==> HasEdfExtension(edfFilename)) && (r.Success? ==> r.value == edfFilename)
    ensures r.Failure? ==> r.error.MissingEdfExtension?
  {
    var name := match newFilename
      case None => edfFilename
      case Some(n) => if n == "" then edfFilename else n;
    if !HasEdfExtension(name) then Failure(MissingEdfExtension(name)) else Success(name)
  }

  /** What `send_status` does: whether it prints the length warning, and the command it sends. */
  datatype StatusOutcome = StatusOutcome(warned: bool, command: string)

  const StatusPrefix: string := "record_status_message '"

  /** `send_status`: warns on 80 or more characters, and sends the quoted status either way. */
  function SendStatus(status: string): (o: StatusOutcome)
    ensures o.warned <==> |status| >= 80
    ensures |o.command| == |StatusPrefix| + |status| + 1
    ensures o.command[..|StatusPrefix|] == StatusPrefix && o.command[|o.command| - 1] == '\''
  {
    StatusOutcome(|status| >= 80, StatusPrefix + status + "'")
  }

  // ---------------------------------------------------------------------------
  // Tracking settings

  /** A value of the settings dictionary. */
  datatype Setting =
    | IntSetting(i: int)
    | RealSetting(r: real)
    | TextSetting(s: string)
    | TupleSetting(items: seq<Setting>)
    | NoSetting                              // Python `None`

  type Settings = map<string, Setting>

  /** The defaults `send_tracking_settings` starts from. */
  const Defaults: Settings := map[
    "automatic_calibration_pacing" := IntSetting(1000),
    "background_color" := TupleSetting([IntSetting(0), IntSetting(0), IntSetting(0)]),
    "calibration_area_proportion" := TupleSetting([RealSetting(0.7), RealSetting(0.7)]),
    "calibration_type" := TextSetting("HV9"),
    "elcl_configuration" := TextSetting("BTABLER"),
    "enable_automatic_calibration" := TextSetting("YES"),
    "error_sound" := TextSetting(""),
    "foreground_color" := TupleSetting([IntSetting(255), IntSetting(255), IntSetting(255)]),
    "good_sound" := TextSetting(""),
    "preamble_text" := NoSetting,
    "pupil_size_diameter" := TextSetting("NO"),
    "saccade_acceleration_threshold" := IntSetting(9500),
    "saccade_motion_threshold" := RealSetting(0.15),
    "saccade_pursuit_fixup" := IntSetting(60),
    "saccade_velocity_threshold" := IntSetting(30),
    "sample_rate" := IntSetting(1000),
    "target_sound" := TextSetting(""),
    "validation_area_proportion" := TupleSetting([RealSetting(0.7), RealSetting(0.7)])
  ]

  /** `defaults.update(settings)`: every key the caller gives overrides the default, the rest keep it. */
  function Merge(overrides: Option<Settings>): (m: Settings)
    ensures overrides.None? ==> m == Defaults
    ensures overrides.Some? ==> m.Keys == Defaults.Keys + overrides.value.Keys
    ensures overrides.Some? ==> forall k :: k in overrides.value ==> m[k] == overrides.value[k]
    ensures forall k :: k in Defaults && (overrides.None? || k !in overrides.value) ==> m[k] == Defaults[k]
  {
    match overrides
    case None => Defaults
    case Some(o) => Defaults + o
  }

  /** Python's `int(r)` on a float: truncation toward zero. */
  function Truncate(r: real): (n: int)
    ensures r >= 0.0 ==> 0.0 <= n as real <= r < n as real + 1.0
    ensures r < 0.0 ==> n as real - 1.0 < r <= n as real <= 0.0
  {
    if r >= 0.0 then r.Floor else -((-r).Floor)
  }

  /** The text a conversion specification writes into a command. */
  datatype Arg =
    | Text(s: string)          // a string written as is
    | Integer(n: int)          // an integer in decimal
    | Decimal(r: real)         // `str` of a float
    | Floats(a: real, b: real) // two floats in `%f` form
    | Shown(v: Setting)        // `str` of any other value

  /** A command as sent: its literal text followed by what its conversion writes. */
  datatype Command = Command(prefix: string, arg: Arg)

  /** How a setting is written: `%s`, `%i`, `%f %f`, or concatenated between double quotes. */
  datatype Conversion = AsString | AsInteger | AsFloatPair | AsQuoted

  /** What formatting a command raises instead: a missing key or a value the conversion rejects. */
  datatype FormatError = KeyError(key: string) | TypeError(key: string)

  /** One command of the plan: fixed text, or text followed by a formatted setting. */
  datatype Step =
    | Fixed(prefix: string, arg: Arg)
    | Formatted(prefix: string, key: string, conversion: Conversion)

  /** The numeric value of an int or float setting. */
  function Numeric(v: Setting): Option<real> {
    match v
    case IntSetting(i) => Some(i as real)
    case RealSetting(r) => Some(r)
    case _ => None
  }

  /** `%` with a single specification unpacks a one-element tuple and rejects any other tuple. */
  function SingleOperand(v: Setting): Option<Setting> {
    match v
    case TupleSetting(items) => if |items| == 1 then Some(items[0]) else None
    case _ => Some(v)
  }

  /** Python's `%s`, `%i`, `%f %f` and the quoted concatenation applied to one setting. */
  function Convert(key: string, v: Setting, c: Conversion): (r: Result<Arg, FormatError>)
    ensures r.Failure? ==> r.error == TypeError(key)
    ensures c == AsInteger && v.IntSetting? ==> r == Success(Integer(v.i))
    ensures c == AsInteger && v.RealSetting? ==> r == Success(Integer(Truncate(v.r)))
    ensures c == AsInteger && (v.TextSetting? || v.NoSetting?) ==> r.Failure?
    ensures c == AsString && !v.TupleSetting? ==> r.Success?
    ensures c == AsString && v.TextSetting? ==> r == Success(Text(v.s))
    ensures c == AsString && v.IntSetting? ==> r == Success(Integer(v.i))
    ensures c == AsString && v.RealSetting? ==> r == Success(Decimal(v.r))
    ensures c == AsString && v.NoSetting? ==> r == Success(Text("None"))
    ensures c == AsFloatPair ==>
      (r.Success? <==> (v.TupleSetting? && |v.items| == 2
                        && Numeric(v.items[0]).Some? && Numeric(v.items[1]).Some?))
    ensures c == AsFloatPair && r.Success? ==>
      r.value == Floats(Numeric(v.items[0]).value, Numeric(v.items[1]).value)
    ensures c == AsQuoted ==> (r.Success? <==> v.TextSetting?)
    ensures c == AsQuoted && v.TextSetting? ==> r == Success(Text("\"" + v.s + "\""))
  {
    match c
    case AsString =>
      (match SingleOperand(v)
       case None => Failure(TypeError(key))
       case Some(IntSetting(i)) => Success(Integer(i))
       case Some(RealSetting(x)) => Success(Decimal(x))
       case Some(TextSetting(s)) => Success(Text(s))
       case Some(NoSetting) => Success(Text("None"))
       case Some(u) => Success(Shown(u)))
    case AsInteger =>
      (match SingleOperand(v)
       case Some(IntSetting(i)) => Success(Integer(i))
       case Some(RealSetting(x)) => Success(Integer(Truncate(x)))
       case _ => Failure(TypeError(key)))
    case AsFloatPair =>
      if v.TupleSetting? && |v.items| == 2 && Numeric(v.items[0]).Some? && Numeric(v.items[1]).Some?
      then Success(Floats(Numeric(v.items[0]).value, Numeric(v.items[1]).value))
      else Failure(TypeError(key))
    case AsQuoted =>
      if v.TextSetting? then Success(Text("\"" + v.s + "\"")) else Failure(TypeError(key))
  }

  /** The command one step sends, or what formatting it raises. */
  function Render(step: Step, settings: Settings): (r: Result<Command, FormatError>)
    ensures r.Success? ==> r.value.prefix == step.prefix
    ensures step.Formatted? && step.key !in settings ==> r == Failure(KeyError(step.key))
    ensures step.Fixed? ==> r == Success(Command(step.prefix, step.arg))
    ensures step.Formatted? && step.key in settings ==>
      var cv := Convert(step.key, settings[step.key], step.conversion);
      && (r.Success? <==> cv.Success?)
      && (r.Success? ==> r.value == Command(step.prefix, cv.value))
      && (r.Failure? ==> r.error == cv.error)
  {
    match step
    case Fixed(prefix, arg) => Success(Command(prefix, arg))
    case Formatted(prefix, key, conversion) =>
      if key !in settings then Failure(KeyError(key))
      else
        match Convert(key, settings[key], conversion)
        case Success(arg) => Success(Command(prefix, arg))
        case Failure(e) => Failure(e)
  }

  /** The commands a tracker received, and what was raised after the last of them, if anything. */
  datatype Transcript = Transcript(sent: seq<Command>, failure: Option<FormatError>)

  /**
   * Sending the steps in order: every step before the first one whose formatting
   * raises reaches the tracker, and nothing after it does.
   */
  function Execute(steps: seq<Step>, settings: Settings): (t: Transcript)
    ensures |t.sent| <= |steps|
    ensures forall i :: 0 <= i < |t.sent| ==> Render(steps[i], settings) == Success(t.sent[i])
    ensures t.failure.None? <==> |t.sent| == |steps|
    ensures t.failure.Some? ==> Render(steps[|t.sent|], settings) == Failure(t.failure.value)
    decreases |steps|
  {
    if |steps| == 0 then Transcript([], None)
    else
      match Render(steps[0], settings)
      case Failure(e) => Transcript([], Some(e))
      case Success(c) =>
        var rest := Execute(steps[1..], settings);
        Transcript([c] + rest.sent, rest.failure)
  }

  /**
   * The steps of `send_tracking_settings` in the order it sends them, with
   * `motion` the conversion of the saccade motion threshold.
   */
  function PlanWith(eye: string, settings: Settings, motion: Conversion): seq<Step> {
    [Formatted("elcl_select_configuration = ", "elcl_configuration", AsString)]
    + (if eye == "LEFT" || eye == "RIGHT" then [Fixed("active_eye = ", Text(eye))] else [])
    + [Formatted("automatic_calibration_pacing = ", "automatic_calibration_pacing", AsInteger),
       Fixed("binocular_enabled = ", Text(if eye == "BOTH" then "YES" else "NO")),
       Formatted("calibration_area_proportion ", "calibration_area_proportion", AsFloatPair),
       Formatted("calibration_type = ", "calibration_type", AsString),
       Formatted("enable_automatic_calibration = ", "enable_automatic_calibration", AsString)]
    + (if "preamble_text" in settings && settings["preamble_text"] != NoSetting
       then [Formatted("add_file_preamble_text ", "preamble_text", AsQuoted)] else [])
    + [Formatted("pupil_size_diameter = ", "pupil_size_diameter", AsString),
       Formatted("saccade_acceleration_threshold = ", "saccade_acceleration_threshold", AsInteger),
       Formatted("saccade_motion_threshold = ", "saccade_motion_threshold", motion),
       Formatted("saccade_pursuit_fixup = ", "saccade_pursuit_fixup", AsInteger),
       Formatted("saccade_velocity_threshold = ", "saccade_velocity_threshold", AsInteger),
       Formatted("sample_rate = ", "sample_rate", AsInteger),
       Formatted("validation_area_proportion ", "validation_area_proportion", AsFloatPair)]
  }

  /** The plan as written: the motion threshold goes through `%i`. */
  function PlanAsWritten(eye: string, settings: Settings): seq<Step> {
    PlanWith(eye, settings, AsInteger)
  }

  /** The plan with the motion threshold written as given, like the other float settings' `%s`. */
  function Plan(eye: string, settings: Settings): seq<Step> {
    PlanWith(eye, settings, AsString)
  }

  /** `send_tracking_settings` as written. */
  function SendTrackingSettingsAsWritten(eye: string, overrides: Option<Settings>): (t: Transcript)
    ensures var settings := Merge(overrides);
      var plan := PlanAsWritten(eye, settings);
      && |t.sent| <= |plan|
      && (forall i :: 0 <= i < |t.sent| ==> Render(plan[i], settings) == Success(t.sent[i]))
      && (t.failure.None? <==> forall i :: 0 <= i < |plan| ==> Render(plan[i], settings).Success?)
      && (t.failure.Some? ==> Render(plan[|t.sent|], settings) == Failure(t.failure.value))
  {
    var settings := Merge(overrides);
    ExecuteCompleteIffAllRender(PlanAsWritten(eye, settings), settings);
    Execute(PlanAsWritten(eye, settings), settings)
  }

  /** `send_tracking_settings` with the motion threshold sent unchanged. */
  function SendTrackingSettings(eye: string, overrides: Option<Settings>): (t: Transcript)
    ensures var settings := Merge(overrides);
      var plan := Plan(eye, settings);
      && |t.sent| <= |plan|
      && (forall i :: 0 <= i < |t.sent| ==> Render(plan[i], settings) == Success(t.sent[i]))
      && (t.failure.None? <==> forall i :: 0 <= i < |plan| ==> Render(plan[i], settings).Success?)
      && (t.failure.Some? ==> Render(plan[|t.sent|], settings) == Failure(t.failure.value))
  {
    var settings := Merge(overrides);
    ExecuteCompleteIffAllRender(Plan(eye, settings), settings);
    Execute(Plan(eye, settings), settings)
  }

  // ---------------------------------------------------------------------------
  // Lemmas

  /** The documented example: (100, 100) on a 1920x1080 screen is (-860, 440) from the centre. */
  lemma TopLeftToCenterExample()
    ensures TopLeftToCenter(Point(100.0, 100.0), Screen(1920.0, 1080.0), false) == Point(-860.0, 440.0)
  {
  }

  /** The documented example: (100, 100) from the centre of a 1920x1080 screen is (1060, 640) from the top left. */
  lemma CenterToTopLeftExample()
    ensures CenterToTopLeft(Point(100.0, 100.0), Screen(1920.0, 1080.0), false) == Point(1060.0, 640.0)
  {
  }

  /** `flipY` negates the y result of `topLeftToCenter` and leaves x alone. */
  lemma FlipOnlyY(p: Point, s: Screen)
    ensures TopLeftToCenter(p, s, true).x == TopLeftToCenter(p, s, false).x
    ensures TopLeftToCenter(p, s, true).y == -TopLeftToCenter(p, s, false).y
  {
  }

  /** Converting to the top-left frame and back, with opposite flags, returns the point. */
  lemma CenterRoundTrip(c: Point, s: Screen, flipY: bool)
    ensures TopLeftToCenter(CenterToTopLeft(c, s, flipY), s, !flipY) == c
  {
  }

  /** With the same flag both ways the round trip mirrors y about the screen: y becomes H - y. */
  lemma SameFlagMirrorsY(p: Point, s: Screen, flipY: bool)
    ensures CenterToTopLeft(TopLeftToCenter(p, s, flipY), s, flipY) == Point(p.x, s.height - p.y)
  {
  }

  /** `filename[-4:] != '.edf'` rejects every name shorter than four characters and is a suffix test otherwise. */
  lemma EdfExtensionIsSuffix(name: string)
    ensures HasEdfExtension(name) <==> |name| >= 4 && name[|name| - 4..] == ".edf"
  {
  }

  /** A constructed wrapper can always transfer its file under its own name (`end_exp` passes none). */
  lemma ConnectedTransfers(filename: string, eye: string, windowColor: seq<real>, textColor: Option<Color>)
    requires Connect(filename, eye, windowColor, textColor).Success?
    ensures var t := Connect(filename, eye, windowColor, textColor).value;
      TransferName(t.edfFilename, None) == Success(filename)
      && TransferName(t.edfFilename, Some("")) == Success(filename)
  {
  }

  /** The status is recoverable from the command: it sits between the prefix and the closing quote. */
  lemma StatusRoundTrip(status: string)
    ensures var c := SendStatus(status).command;
      c[|StatusPrefix|..|c| - 1] == status
  {
    var c := SendStatus(status).command;
    assert c == StatusPrefix + status + "'";
  }

  /** `active_eye` is sent exactly when one eye is tracked. */
  lemma ActiveEyeOnlyForOneEye(eye: string, settings: Settings, motion: Conversion)
    ensures (exists i :: 0 <= i < |PlanWith(eye, settings, motion)| && PlanWith(eye, settings, motion)[i].prefix == "active_eye = ")
       <==> eye == "LEFT" || eye == "RIGHT"
  {
    var p := PlanWith(eye, settings, motion);
    if eye == "LEFT" || eye == "RIGHT" {
      assert p[1].prefix == "active_eye = ";
    }
  }

  /** `binocular_enabled` is always sent, with YES exactly when both eyes are tracked. */
  lemma BinocularIffBoth(eye: string, settings: Settings, motion: Conversion)
    ensures var p := PlanWith(eye, settings, motion);
      var k := if eye == "LEFT" || eye == "RIGHT" then 3 else 2;
      k < |p| && p[k] == Fixed("binocular_enabled = ", Text(if eye == "BOTH" then "YES" else "NO"))
  {
  }

  /** The preamble command is in the plan exactly when the merged settings give a preamble. */
  lemma PreambleOnlyWhenGiven(eye: string, settings: Settings, motion: Conversion)
    requires "preamble_text" in settings
    ensures (exists i :: 0 <= i < |PlanWith(eye, settings, motion)| && PlanWith(eye, settings, motion)[i].prefix == "add_file_preamble_text ")
       <==> settings["preamble_text"] != NoSetting
  {
    var p := PlanWith(eye, settings, motion);
    var k := if eye == "LEFT" || eye == "RIGHT" then 7 else 6;
    if settings["preamble_text"] != NoSetting {
      assert p[k].prefix == "add_file_preamble_text ";
    }
  }

  /** A transcript is complete exactly when every step renders. */
  lemma {:induction false} ExecuteCompleteIffAllRender(steps: seq<Step>, settings: Settings)
    ensures Execute(steps, settings).failure.None?
        <==> forall i :: 0 <= i < |steps| ==> Render(steps[i], settings).Success?
  {
    var t := Execute(steps, settings);
    if t.failure.Some? {
      assert !Render(steps[|t.sent|], settings).Success?;
    }
  }

  /** Every step of the plan renders under the defaults, for any eye. */
  lemma DefaultsRender(eye: string, motion: Conversion)
    requires motion == AsInteger || motion == AsString
    ensures forall i :: 0 <= i < |PlanWith(eye, Defaults, motion)| ==> Render(PlanWith(eye, Defaults, motion)[i], Defaults).Success?
  {
    var p := PlanWith(eye, Defaults, motion);
    assert Defaults["preamble_text"] == NoSetting;
    forall i | 0 <= i < |p|
      ensures Render(p[i], Defaults).Success?
    {
    }
  }

  /** The motion threshold step of the plan for one eye, rendered under the defaults. */
  lemma DefaultMotionStep(motion: Conversion)
    requires motion == AsInteger || motion == AsString
    ensures var p := PlanWith("LEFT", Defaults, motion);
      && |p| == 14
      && p[9] == Formatted("saccade_motion_threshold = ", "saccade_motion_threshold", motion)
      && Render(p[9], Defaults).Success?
      && Render(p[9], Defaults).value.arg == (if motion == AsInteger then Integer(0) else Decimal(0.15))
  {
    assert Defaults["preamble_text"] == NoSetting;
    assert Defaults["saccade_motion_threshold"] == RealSetting(0.15);
  }

  /** For one eye under the defaults all fourteen commands are sent, the tenth carrying the motion threshold. */
  lemma DefaultTranscript(motion: Conversion)
    requires motion == AsInteger || motion == AsString
    ensures var t := Execute(PlanWith("LEFT", Defaults, motion), Defaults);
      && t.failure.None? && |t.sent| == 14
      && t.sent[9] == Command("saccade_motion_threshold = ",
                              if motion == AsInteger then Integer(0) else Decimal(0.15))
  {
    var p := PlanWith("LEFT", Defaults, motion);
    DefaultMotionStep(motion);
    DefaultsRender("LEFT", motion);
    ExecuteCompleteIffAllRender(p, Defaults);
  }

  /**
   * As written, the default motion threshold 0.15 goes through `%i` and reaches
   * the tracker as 0; the fourteen commands for one eye are all sent.
   */
  lemma DefaultMotionThresholdTruncated()
    ensures var t := SendTrackingSettingsAsWritten("LEFT", None);
      && t.failure.None? && |t.sent| == 14
      && t.sent[9] == Command("saccade_motion_threshold = ", Integer(0))
  {
    DefaultTranscript(AsInteger);
  }

  /** With the threshold written as given, the default 0.15 reaches the tracker unchanged. */
  lemma DefaultMotionThresholdKept()
    ensures var t := SendTrackingSettings("LEFT", None);
      && t.failure.None? && |t.sent| == 14
      && t.sent[9] == Command("saccade_motion_threshold = ", Decimal(0.15))
  {
    DefaultTranscript(AsString);
  }

  /** The number a rendered argument writes, when it writes one. */
  function ArgNumber(a: Arg): Option<real> {
    match a
    case Integer(n) => Some(n as real)
    case Decimal(r) => Some(r)
    case _ => None
  }

  /** `%s` writes an int or float setting with its value intact. */
  lemma StringConversionKeepsNumbers(key: string, v: Setting)
    requires Numeric(v).Some?
    ensures Convert(key, v, AsString).Success?
    ensures ArgNumber(Convert(key, v, AsString).value) == Numeric(v)
  {
  }

  /** `%i` writes an int or float setting truncated, so it keeps the value exactly when that is whole. */
  lemma IntegerConversionTruncates(key: string, v: Setting)
    requires Numeric(v).Some?
    ensures Convert(key, v, AsInteger).Success?
    ensures ArgNumber(Convert(key, v, AsInteger).value) == Some(Truncate(Numeric(v).value) as real)
    ensures ArgNumber(Convert(key, v, AsInteger).value) == Numeric(v) <==> Numeric(v).value == Numeric(v).value.Floor as real
  {
    TruncateKeepsWhole(Numeric(v).value);
  }

  /** Truncation changes a number exactly when it is not whole. */
  lemma TruncateKeepsWhole(r: real)
    ensures Truncate(r) as real == r <==> r == r.Floor as real
  {
    if r < 0.0 {
      var n := (-r).Floor;
      assert Truncate(r) == -n;
      if -(n as real) == r {
        assert r.Floor == -n;
      }
      if r == r.Floor as real {
        assert (-r).Floor == -(r.Floor);
      }
    }
  }
}

=== FILE: persistence.dfy ===
/**
 * The on-disk record store of a participant, abstracted as a map from file
 * path to the list of JSON entries in that file, together with the path scheme
 * shared by saving and resuming and the resume of the staircase.
 */
module Persistence {
  import opened Wrappers
  import opened Decimal
  import opened Staircase

  /** The fields of a saved test trial this model keeps: its index, target flag, outcome and staircase. */
  datatype TrialRecord = TrialRecord(
    numTrial: int,
    target: int,
    outcome: int,
    staircase: State)

  /**
   * One top-level element of a saved JSON list: a trial record, or a whole block's
   * list of records nested inside the list (what a second save to the same file appends).
   */
  datatype Entry = Record(record: TrialRecord) | Nested(records: seq<TrialRecord>)

  type Store = map<string, seq<Entry>>

  /** What the resume raises instead of returning a state. */
  datatype LoadError =
    | FileNotFound(path: string)   // FileNotFoundError raised by the loader
    | EmptyBlock(path: string)     // IndexError from taking the last element of []
    | NotARecord(path: string)     // TypeError from reading a field of a nested list

  /** `data/{participant_id}/{phase}_block{block}.json`, the path a block is saved under. */
  function BlockPath(participantId: string, phase: string, block: int): string {
    "data/" + participantId + "/" + phase + "_block" + IntToString(block) + ".json"
  }

  /** `data/{participant_id}/test_block{block-1}.json`, the path the resume reads. */
  function ResumePath(participantId: string, block: int): string {
    "data/" + participantId + "/test_block" + IntToString(block - 1) + ".json"
  }

  function AsEntries(records: seq<TrialRecord>): (es: seq<Entry>)
    ensures |es| == |records|
    ensures forall i :: 0 <= i < |records| ==> es[i] == Record(records[i])
  {
    if |records| == 0 then [] else [Record(records[0])] + AsEntries(records[1..])
  }

  /**
   * The staircase fields of the last record saved for the previous test block,
   * or the error the source raises when that record cannot be read.
   */
  function LoadLastStaircase(store: Store, participantId: string, block: int): (r: Result<State, LoadError>)
    ensures var path := ResumePath(participantId, block);
      && (r == Failure(FileNotFound(path)) <==> path !in store)
      && (r == Failure(EmptyBlock(path)) <==> path in store && |store[path]| == 0)
      && (r.Success? <==> path in store && |store[path]| > 0 && store[path][|store[path]| - 1].Record?)
      && (r.Success? ==> r.value == store[path][|store[path]| - 1].record.staircase)
  {
    var path := ResumePath(participantId, block);
    if path !in store then Failure(FileNotFound(path))
    else
      var entries := store[path];
      if |entries| == 0 then Failure(EmptyBlock(path))
      else
        match entries[|entries| - 1]
        case Record(last) => Success(last.staircase)
        case Nested(_) => Failure(NotARecord(path))
  }

  /**
   * `save_block_data` as written: a new file receives the records; an existing
   * file receives the whole list appended as ONE nested element.
   */
  function SaveBlockAsWritten(store: Store, participantId: string, phase: string, block: int,
                              records: seq<TrialRecord>): (r: Store)
    ensures var path := BlockPath(participantId, phase, block);
      && r.Keys == store.Keys + {path}
      && (forall p :: p in store && p != path ==> r[p] == store[p])
      && r[path] == if path in store then store[path] + [Nested(records)] else AsEntries(records)
  {
    var path := BlockPath(participantId, phase, block);
    if path in store then store[path := store[path] + [Nested(records)]]
    else store[path := AsEntries(records)]
  }

  /** The corrected save: records appended one by one, so the latest trial is always last in the file. */
  function SaveBlock(store: Store, participantId: string, phase: string, block: int,
                     records: seq<TrialRecord>): (r: Store)
    ensures var path := BlockPath(participantId, phase, block);
      && r.Keys == store.Keys + {path}
      && (forall p :: p in store && p != path ==> r[p] == store[p])
      && r[path] == (if path in store then store[path] else []) + AsEntries(records)
  {
    var path := BlockPath(participantId, phase, block);
    if path in store then store[path := store[path] + AsEntries(records)]
    else store[path := AsEntries(records)]
  }

  /** The resume of block b reads exactly the file the save of test block b - 1 writes. */
  lemma ResumeReadsSavedPath(participantId: string, block: int)
    ensures ResumePath(participantId, block) == BlockPath(participantId, "test", block - 1)
  {
    var d := IntToString(block - 1);
    assert "data/" + participantId + "/" + "test" + "_block" + d + ".json"
        == "data/" + participantId + "/test_block" + d + ".json";
  }

  /** Saving a non-empty test block and resuming the next block returns the last record's staircase. */
  lemma SaveThenResume(store: Store, participantId: string, block: int, records: seq<TrialRecord>)
    requires |records| > 0
    ensures LoadLastStaircase(SaveBlock(store, participantId, "test", block - 1, records), participantId, block)
         == Success(records[|records| - 1].staircase)
  {
    ResumeReadsSavedPath(participantId, block);
    var path := BlockPath(participantId, "test", block - 1);
    var saved := SaveBlock(store, participantId, "test", block - 1, records);
    var es := saved[path];
    var before := if path in store then store[path] else [];
    assert es == before + AsEntries(records);
    assert es[|es| - 1] == AsEntries(records)[|records| - 1] == Record(records[|records| - 1]);
  }

  /** As written, a first save of a test block is resumable. */
  lemma FirstSaveThenResume(store: Store, participantId: string, block: int, records: seq<TrialRecord>)
    requires |records| > 0
    requires BlockPath(participantId, "test", block - 1) !in store
    ensures LoadLastStaircase(SaveBlockAsWritten(store, participantId, "test", block - 1, records), participantId, block)
         == Success(records[|records| - 1].staircase)
  {
    ResumeReadsSavedPath(participantId, block);
  }

  /** As written, saving a test block a second time makes the next block's resume fail. */
  lemma RerunBreaksResume(store: Store, participantId: string, block: int, records: seq<TrialRecord>)
    requires BlockPath(participantId, "test", block - 1) in store
    ensures LoadLastStaircase(SaveBlockAsWritten(store, participantId, "test", block - 1, records), participantId, block)
         == Failure(NotARecord(ResumePath(participantId, block)))
  {
    ResumeReadsSavedPath(participantId, block);
  }

  /** Different blocks of one participant and phase are saved under different paths. */
  lemma BlockPathsDistinct(participantId: string, phase: string, b1: int, b2: int)
    requires b1 != b2
    ensures BlockPath(participantId, phase, b1) != BlockPath(participantId, phase, b2)
  {
    var pre := "data/" + participantId + "/" + phase + "_block";
    var d1 := IntToString(b1);
    var d2 := IntToString(b2);
    if BlockPath(participantId, phase, b1) == BlockPath(participantId, phase, b2) {
      var p1 := pre + d1 + ".json";
      var p2 := pre + d2 + ".json";
      assert p1 == BlockPath(participantId, phase, b1);
      assert p2 == BlockPath(participantId, phase, b2);
      assert |d1| == |d2|;
      assert d1 == p1[|pre|..|pre| + |d1|];
      assert d2 == p2[|pre|..|pre| + |d2|];
      IntToStringInjective(b1, b2);
    }
  }

  lemma IntToStringInjective(m: int, n: int)
    requires IntToString(m) == IntToString(n)
    ensures m == n
  {
    if m < 0 && n < 0 {
      assert NatToString(-m) == IntToString(m)[1..];
      NatToStringInjective(-m, -n);
    } else if m >= 0 && n >= 0 {
      NatToStringInjective(m, n);
    }
  }
}

=== FILE: scoring.dfy ===
/**
 * Scoring of a response once the pressed key is known: the outcome (1 correct,
 * 0 otherwise, 0 on a timeout), the label shown for the key, and the feedback
 * colour of the fixation dot.
 */
module Scoring {
  import opened Wrappers

  datatype Key = Left | Right | Space

  /** The label each response key stands for in a block. */
  datatype KeyMapping = KeyMapping(left: string, right: string, space: string) {
    function Label(k: Key): string {
      match k
      case Left => left
      case Right => right
      case Space => space
    }
  }

  /** The scored response: pressed key (None on timeout), outcome, label, feedback colour, timeout flag. */
  datatype Response = Response(
    pressedKey: Option<Key>,
    outcome: int,
    response: string,
    fixationColor: string,
    timeout: bool)

  /** The label recorded for a press, "NA" when no key was pressed. */
  function ResponseLabel(m: KeyMapping, pressed: Option<Key>): string {
    match pressed
    case None => "NA"
    case Some(k) => m.Label(k)
  }

  function FeedbackColor(outcome: int): string {
    if outcome == 1 then "green" else "red"
  }

  /** A test-phase answer is right when it calls a non-target "normal" or a target "deviant". */
  predicate TestCorrect(name: string, target: int) {
    (name == "normal" && target == 0) || (name == "deviant" && target == 1)
  }

  /** Scoring of a test-phase response. */
  function TestResponse(m: KeyMapping, pressed: Option<Key>, target: int): (r: Response)
    ensures r.outcome == 0 || r.outcome == 1
    ensures r.timeout <==> pressed.None?
    ensures r.outcome == 1 <==> pressed.Some? && TestCorrect(m.Label(pressed.value), target)
    ensures r.fixationColor == "green" <==> r.outcome == 1
    ensures r.fixationColor == "red" <==> r.outcome == 0
    ensures r.response == ResponseLabel(m, pressed) && r.pressedKey == pressed
  {
    match pressed
    case None => Response(None, 0, "NA", "red", true)
    case Some(k) =>
      var outcome := if TestCorrect(m.Label(k), target) then 1 else 0;
      Response(pressed, outcome, m.Label(k), FeedbackColor(outcome), false)
  }

  /** The label a learning-phase answer should carry for the trial's visual prediction. */
  function ExpectedLearningLabel(vPred: string): Option<string> {
    if vPred == "neutral" then Some("neutral")
    else if vPred == "EXP" then Some("frequent")
    else if vPred == "UEX" then Some("infrequent")
    else None
  }

  /**
   * The learning-phase correctness test as written: on an expected ("EXP") trial
   * any label other than "frequent" counts as correct.
   */
  predicate LearningCorrectAsWritten(name: string, vPred: string) {
    || (name == "neutral" && vPred == "neutral")
    || (name != "frequent" && vPred == "EXP")
    || (name == "infrequent" && vPred == "UEX")
  }

  /** Scoring of a learning-phase response as written. */
  function LearningResponseAsWritten(m: KeyMapping, pressed: Option<Key>, vPred: string): (r: Response)
    ensures r.outcome == 0 || r.outcome == 1
    ensures r.timeout <==> pressed.None?
    ensures r.outcome == 1 <==> pressed.Some? && LearningCorrectAsWritten(m.Label(pressed.value), vPred)
    ensures r.fixationColor == "green" <==> r.outcome == 1
  {
    match pressed
    case None => Response(None, 0, "NA", "red", true)
    case Some(k) =>
      var outcome := if LearningCorrectAsWritten(m.Label(k), vPred) then 1 else 0;
      Response(pressed, outcome, m.Label(k), FeedbackColor(outcome), false)
  }

  /** Scoring of a learning-phase response with the expected-trial test the other two clauses imply. */
  function LearningResponse(m: KeyMapping, pressed: Option<Key>, vPred: string): (r: Response)
    ensures r.outcome == 0 || r.outcome == 1
    ensures r.timeout <==> pressed.None?
    ensures r.outcome == 1 <==> pressed.Some? && ExpectedLearningLabel(vPred) == Some(m.Label(pressed.value))
    ensures r.fixationColor == "green" <==> r.outcome == 1
  {
    match pressed
    case None => Response(None, 0, "NA", "red", true)
    case Some(k) =>
      var shown := m.Label(k);
      var correct := (shown == "neutral" && vPred == "neutral")
                  || (shown == "frequent" && vPred == "EXP")
                  || (shown == "infrequent" && vPred == "UEX");
      var outcome := if correct then 1 else 0;
      Response(pressed, outcome, shown, FeedbackColor(outcome), false)
  }

  /** The explicit-phase response: no feedback colour. */
  datatype ExplicitResponse = ExplicitResponse(
    pressedKey: Option<Key>,
    outcome: int,
    response: string,
    timeout: bool)

  /** The prediction an explicit trial asks about: visual for modality "visual", auditory otherwise. */
  function QueriedPred(modality: string, vPred: string, aPred: string): string {
    if modality == "visual" then vPred else aPred
  }

  /** Scoring of an explicit-phase response. */
  function ExplicitResponseOf(m: KeyMapping, pressed: Option<Key>, modality: string,
                              vPred: string, aPred: string): (r: ExplicitResponse)
    ensures r.outcome == 0 || r.outcome == 1
    ensures r.timeout <==> pressed.None?
    ensures r.response == ResponseLabel(m, pressed)
    ensures var pred := QueriedPred(modality, vPred, aPred);
      r.outcome == 1 <==>
        && pressed.Some?
        && pred in {"EXP", "UEX"}
        && ExpectedLearningLabel(pred) == Some(m.Label(pressed.value))
  {
    match pressed
    case None => ExplicitResponse(None, 0, "NA", true)
    case Some(k) =>
      var shown := m.Label(k);
      var pred := QueriedPred(modality, vPred, aPred);
      var correct := (shown == "frequent" && pred == "EXP") || (shown == "infrequent" && pred == "UEX");
      ExplicitResponse(pressed, if correct then 1 else 0, shown, false)
  }

  // ---------------------------------------------------------------------------

  /** With "normal"/"deviant" labels on the two keys, exactly one key is right for each trial kind. */
  lemma TestScoringDiscriminates(target: int)
    requires target == 0 || target == 1
    ensures var m := KeyMapping("normal", "deviant", "neutral");
      && TestResponse(m, Some(Left), target).outcome + TestResponse(m, Some(Right), target).outcome == 1
      && TestResponse(m, None, target).outcome == 0
  {
  }

  /** A test label other than "normal" or "deviant" is never scored correct. */
  lemma TestNeedsNormalOrDeviant(m: KeyMapping, k: Key, target: int)
    requires m.Label(k) != "normal" && m.Label(k) != "deviant"
    ensures TestResponse(m, Some(k), target).outcome == 0
    ensures TestResponse(m, Some(k), target).fixationColor == "red"
  {
  }

  /**
   * As written, on an expected trial the "frequent" key is scored wrong while the
   * "infrequent" and "neutral" keys are scored right.
   */
  lemma LearningAsWrittenMisScoresExpected()
    ensures var m := KeyMapping("frequent", "infrequent", "neutral");
      && LearningResponseAsWritten(m, Some(Left), "EXP").outcome == 0
      && LearningResponseAsWritten(m, Some(Right), "EXP").outcome == 1
      && LearningResponseAsWritten(m, Some(Space), "EXP").outcome == 1
      && LearningResponse(m, Some(Left), "EXP").outcome == 1
      && LearningResponse(m, Some(Right), "EXP").outcome == 0
  {
  }

  /** Away from expected trials the written and the corrected learning scoring agree. */
  lemma LearningAgreesOffExpected(m: KeyMapping, pressed: Option<Key>, vPred: string)
    requires vPred != "EXP"
    ensures LearningResponseAsWritten(m, pressed, vPred) == LearningResponse(m, pressed, vPred)
  {
  }

  /** With distinct labels, exactly one key is right on every neutral or predictive learning trial. */
  lemma LearningOneRightKey(m: KeyMapping, vPred: string)
    requires m.left != m.right && m.left != m.space && m.right != m.space
    requires ExpectedLearningLabel(vPred).Some?
    requires ExpectedLearningLabel(vPred).value in {m.left, m.right, m.space}
    ensures LearningResponse(m, Some(Left), vPred).outcome
          + LearningResponse(m, Some(Right), vPred).outcome
          + LearningResponse(m, Some(Space), vPred).outcome == 1
  {
  }

  /**
   * A query about a neutral (or any non-predictive) stimulus is never scored right
   * in the explicit phase, while the learning phase rewards the "neutral" key.
   */
  lemma ExplicitNeutralScoresZero(m: KeyMapping, pressed: Option<Key>, modality: string, vPred: string, aPred: string)
    requires QueriedPred(modality, vPred, aPred) !in {"EXP", "UEX"}
    ensures ExplicitResponseOf(m, pressed, modality, vPred, aPred).outcome == 0
  {
  }

  /** On predictive trials the explicit test scores like the learning test applied to the queried prediction. */
  lemma ExplicitMatchesLearning(m: KeyMapping, pressed: Option<Key>, modality: string, vPred: string, aPred: string)
    requires QueriedPred(modality, vPred, aPred) in {"EXP", "UEX"}
    ensures ExplicitResponseOf(m, pressed, modality, vPred, aPred).outcome
         == LearningResponse(m, pressed, QueriedPred(modality, vPred, aPred)).outcome
  {
  }
}

=== FILE: session.dfy ===
/**
 * Session bookkeeping of the live `setup`: the participant id, the alternating
 * key mappings assigned to blocks, and the default phase and block offered from
 * the number of completed blocks.
 */
module Session {
  import opened Wrappers
  import opened Decimal
  import opened Scoring

  /** `f"sub-{n:02d}"`. */
  function ParticipantId(n: int): (id: string)
    ensures |id| >= 6 && id[..4] == "sub-"
    ensures 0 <= n < 10 ==> |id| == 6 && id[4] == '0'
    ensures n >= 10 ==> id[4] != '0'
    ensures n < 0 ==> id[4] == '-'
  {
    "sub-" + Format02(n)
  }

  /** The first key mapping: LEFT means frequent, RIGHT infrequent. */
  const KeyMapping1: KeyMapping := KeyMapping("frequent", "infrequent", "neutral")

  /** The second key mapping: LEFT and RIGHT swapped. */
  const KeyMapping2: KeyMapping := KeyMapping("infrequent", "frequent", "neutral")

  /**
   * The mapping of the block with 0-based index `index` within its phase:
   * `key_mapping1` when `index % 2` equals the coin flip (True counting as 1).
   */
  function BlockMapping(index: nat, randomKeyOrder: bool): (m: KeyMapping)
    ensures m == KeyMapping1 || m == KeyMapping2
  {
    if index % 2 == (if randomKeyOrder then 1 else 0) then KeyMapping1 else KeyMapping2
  }

  /** The mappings of a phase's blocks, in block order. */
  function PhaseMappings(blocks: nat, randomKeyOrder: bool): (ms: seq<KeyMapping>)
    ensures |ms| == blocks
    ensures forall i :: 0 <= i < blocks ==> ms[i] == BlockMapping(i, randomKeyOrder)
  {
    seq(blocks, i requires 0 <= i => BlockMapping(i, randomKeyOrder))
  }

  datatype Phase = Learning | Test | Explicit

  /** The number of blocks each phase has (`PHASES`). */
  datatype Quotas = Quotas(learningBlocks: int, testBlocks: int, explicitBlocks: int)

  /** The phase and block the block-selection dialog offers by default. */
  datatype Selection = Selection(phase: Phase, block: int)

  /** The default selection as the live `setup` computes it. */
  function DefaultSelection(completedLearning: int, completedTest: int, completedExplicit: int,
                            q: Quotas): (sel: Selection)
    ensures sel.phase == Learning ==> completedLearning < q.learningBlocks
    ensures sel.phase == Test ==> completedLearning >= q.learningBlocks && completedTest < q.testBlocks
    ensures sel.phase == Explicit && completedExplicit < q.explicitBlocks ==>
      completedLearning >= q.learningBlocks && completedTest >= q.testBlocks
  {
    if completedLearning < q.learningBlocks then Selection(Learning, completedLearning + 1)
    else if completedTest < q.testBlocks then Selection(Test, completedTest + 1)
    else if completedExplicit < q.explicitBlocks then Selection(Explicit, completedExplicit + 1)
    else Selection(Explicit, q.explicitBlocks)
  }

  /** A phase's progress: how many of its blocks are completed out of how many. */
  datatype Progress = Progress(phase: Phase, completed: int, quota: int)

  /**
   * Reference definition: the next block of the first phase in the list that is
   * not finished, or `fallback` when every phase is finished.
   */
  function FirstUnfinished(ps: seq<Progress>, fallback: Selection): Selection
    decreases |ps|
  {
    if |ps| == 0 then fallback
    else if ps[0].completed < ps[0].quota then Selection(ps[0].phase, ps[0].completed + 1)
    else FirstUnfinished(ps[1..], fallback)
  }

  // ---------------------------------------------------------------------------

  /** The digits after "sub-" read back as the participant number. */
  lemma ParticipantIdRoundTrip(n: nat)
    ensures AllDigits(ParticipantId(n)[4..]) && ValueOf(ParticipantId(n)[4..]) == n
  {
    var p := ZeroPad(NatToString(n), 2);
    assert ParticipantId(n)[4..] == p;
    ZeroPadKeepsValue(NatToString(n), 2);
    NatToStringRoundTrip(n);
  }

  /** A negative number keeps its sign: "sub-" is followed by '-' and the digits of its magnitude. */
  lemma NegativeParticipantId(n: int)
    requires n < 0
    ensures ParticipantId(n)[4] == '-'
    ensures AllDigits(ParticipantId(n)[5..]) && ValueOf(ParticipantId(n)[5..]) == -n
  {
    var p := NatToString(-n);
    assert Format02(n) == "-" + p;
    assert ParticipantId(n) == "sub-" + ("-" + p);
    assert ParticipantId(n)[5..] == p;
    NatToStringRoundTrip(-n);
  }

  /** A number from 0 to 9 gains one leading zero: 7 becomes "sub-07". */
  lemma ParticipantIdOneDigit(n: int)
    requires 0 <= n < 10
    ensures ParticipantId(n) == "sub-0" + [DigitChar(n)]
  {
    Format02SingleDigit(n);
    assert ParticipantId(n) == "sub-" + Format02(n);
  }

  /** Both mappings send SPACE to "neutral" and differ only by swapping LEFT and RIGHT. */
  lemma MappingsSwapLeftRight()
    ensures KeyMapping1.space == "neutral" && KeyMapping2.space == "neutral"
    ensures KeyMapping2.left == KeyMapping1.right && KeyMapping2.right == KeyMapping1.left
    ensures KeyMapping1 != KeyMapping2
  {
  }

  /** Consecutive blocks of a phase get different mappings; blocks two apart get the same. */
  lemma MappingsAlternate(index: nat, randomKeyOrder: bool)
    ensures BlockMapping(index + 1, randomKeyOrder) != BlockMapping(index, randomKeyOrder)
    ensures BlockMapping(index + 2, randomKeyOrder) == BlockMapping(index, randomKeyOrder)
  {
  }

  /** The coin flip decides the first block's mapping: True gives it the second mapping. */
  lemma FirstBlockMapping(randomKeyOrder: bool)
    ensures BlockMapping(0, randomKeyOrder) == if randomKeyOrder then KeyMapping2 else KeyMapping1
  {
  }

  /**
   * The mappings `setup` assigns carry no "normal" or "deviant" label, so the test
   * scoring never counts a response through them as correct.
   */
  lemma SetupMappingsNeverScoreTest(index: nat, randomKeyOrder: bool, pressed: Option<Key>, target: int)
    ensures TestResponse(BlockMapping(index, randomKeyOrder), pressed, target).outcome == 0
  {
  }

  /** The default selection is the first unfinished phase in the order learning, test, explicit. */
  lemma DefaultIsFirstUnfinished(cl: int, ct: int, ce: int, q: Quotas)
    ensures DefaultSelection(cl, ct, ce, q)
         == FirstUnfinished([Progress(Learning, cl, q.learningBlocks),
                             Progress(Test, ct, q.testBlocks),
                             Progress(Explicit, ce, q.explicitBlocks)],
                            Selection(Explicit, q.explicitBlocks))
  {
    var ps := [Progress(Learning, cl, q.learningBlocks),
               Progress(Test, ct, q.testBlocks),
               Progress(Explicit, ce, q.explicitBlocks)];
    var fb := Selection(Explicit, q.explicitBlocks);
    assert ps[1..] == [ps[1], ps[2]];
    assert ps[1..][1..] == [ps[2]];
    assert ps[1..][1..][1..] == [];
    assert FirstUnfinished([ps[2]], fb)
        == if ce < q.explicitBlocks then Selection(Explicit, ce + 1) else FirstUnfinished([], fb);
  }

  /** An offered block that is not the fallback is the one after the completed ones, within the quota. */
  lemma DefaultBlockInRange(cl: int, ct: int, ce: int, q: Quotas)
    requires cl >= 0 && ct >= 0 && ce >= 0
    ensures var sel := DefaultSelection(cl, ct, ce, q);
      && (sel.phase == Learning ==> sel.block == cl + 1 <= q.learningBlocks)
      && (sel.phase == Test ==> sel.block == ct + 1 <= q.testBlocks)
      && (sel.phase == Explicit ==> sel.block == (if ce < q.explicitBlocks then ce + 1 else q.explicitBlocks))
  {
  }
}

=== FILE: staircase.dfy ===
/**
 * The 3-down-1-up adaptive staircase of the test phase: one call per target
 * trial turns the previous state and that trial's outcome into the next state.
 */
module Staircase {
  import opened Wrappers

  /** Ceiling on the orientation difference; the source hard-codes it in the update rule. */
  const MaxOriDiff: real := 30.0

  /**
   * The stored `last_direction`. The source compares it with the strings "up" and
   * "down"; `Unset` stands for any other stored value (such as an initial one).
   */
  datatype Direction = Up | Down | Unset

  /** The five staircase fields carried from trial to trial and saved in every record. */
  datatype State = State(
    oriDiff: real,
    inversions: int,
    lastDirection: Direction,
    history: int,
    stepSize: Option<real>)

  /** The step schedule: step sizes, coarsest first, and the inversion counts that select them. */
  datatype Schedule = Schedule(stepSizes: seq<real>, stepUpdate: seq<int>)

  /** The source indexes four step sizes and three thresholds; shorter lists raise IndexError. */
  predicate WellFormed(sch: Schedule) {
    |sch.stepSizes| >= 4 && |sch.stepUpdate| >= 3
  }

  predicate NonNegativeSteps(sch: Schedule) {
    forall i :: 0 <= i < |sch.stepSizes| ==> sch.stepSizes[i] >= 0.0
  }

  /** A change of direction from up to down or from down to up. */
  predicate IsReversal(before: Direction, after: Direction) {
    (before == Up && after == Down) || (before == Down && after == Up)
  }

  /** Index of the step size chosen for an inversion count, following the source's elif chain. */
  function StepIndex(inversions: int, t: seq<int>): (k: nat)
    requires |t| >= 3
    ensures k < 4
    ensures k == 0 <==> inversions < t[0]
    ensures k == 3 ==> inversions >= t[2]
  {
    if inversions < t[0] then 0
    else if inversions >= t[0] && inversions < t[1] then 1
    else if inversions >= t[1] && inversions < t[2] then 2
    else 3
  }

  /** The step size chosen for an inversion count. */
  function StepFor(inversions: int, sch: Schedule): (step: real)
    requires WellFormed(sch)
    ensures step in sch.stepSizes[..4]
  {
    sch.stepSizes[StepIndex(inversions, sch.stepUpdate)]
  }

  /** Number of the thresholds in `t` that an inversion count meets or exceeds. */
  function ThresholdsMet(inversions: int, t: seq<int>): (n: nat)
    ensures n <= |t|
  {
    if |t| == 0 then 0
    else (if t[0] <= inversions then 1 else 0) + ThresholdsMet(inversions, t[1..])
  }

  predicate Sorted(t: seq<int>) {
    forall i, j :: 0 <= i < j < |t| ==> t[i] <= t[j]
  }

  /**
   * One staircase update. Outcome 0 (incorrect) raises the orientation difference
   * by one step unless that would pass the ceiling; any other outcome counts as
   * correct and lowers it by one step on the third correct response in a row.
   * The incoming `stepSize` is ignored: the step is recomputed from the incoming
   * inversion count, and `last_outcome` is not part of the result.
   */
  function Advance(s: State, outcome: int, sch: Schedule): (r: State)
    requires WellFormed(sch)
    ensures r.stepSize == Some(StepFor(s.inversions, sch))
    ensures s.inversions <= r.inversions <= s.inversions + 1
    ensures r.inversions == s.inversions + 1 <==> IsReversal(s.lastDirection, r.lastDirection)
    ensures r.oriDiff != s.oriDiff ==> r.history == 0
    ensures NonNegativeSteps(sch) && s.oriDiff <= MaxOriDiff ==> r.oriDiff <= MaxOriDiff
    ensures 0 <= s.history <= 2 ==> 0 <= r.history <= 2
  {
    var step := StepFor(s.inversions, sch);
    if outcome == 0 then
      if s.oriDiff + step <= MaxOriDiff then
        State(s.oriDiff + step,
              if s.lastDirection == Down then s.inversions + 1 else s.inversions,
              Up, 0, Some(step))
      else
        State(s.oriDiff, s.inversions, s.lastDirection, s.history, Some(step))
    else
      var h := s.history + 1;
      if h == 3 then
        State(s.oriDiff - step,
              if s.lastDirection == Up then s.inversions + 1 else s.inversions,
              Down, 0, Some(step))
      else
        State(s.oriDiff, s.inversions, s.lastDirection, h, Some(step))
  }

  /** The staircase driven by a sequence of outcomes, one call per outcome. */
  function Run(s: State, outcomes: seq<int>, sch: Schedule): State
    requires WellFormed(sch)
    decreases |outcomes|
  {
    if |outcomes| == 0 then s else Run(Advance(s, outcomes[0], sch), outcomes[1..], sch)
  }

  // ---------------------------------------------------------------------------
  // Single-call laws

  /** With sorted thresholds the step index is the number of thresholds met. */
  lemma StepIndexCountsThresholds(inversions: int, t: seq<int>)
    requires |t| == 3 && Sorted(t)
    ensures StepIndex(inversions, t) == ThresholdsMet(inversions, t)
  {
    var n0 := if t[0] <= inversions then 1 else 0;
    var n1 := if t[1] <= inversions then 1 else 0;
    var n2 := if t[2] <= inversions then 1 else 0;
    assert t[1..][1..] == [t[2]];
    assert ThresholdsMet(inversions, [t[2]]) == n2 + ThresholdsMet(inversions, []);
    assert ThresholdsMet(inversions, t[1..]) == n1 + n2;
    assert ThresholdsMet(inversions, t) == n0 + n1 + n2;
  }

  /** An error below the ceiling raises the difference by exactly the step and resets the streak. */
  lemma IncorrectBelowCeiling(s: State, sch: Schedule)
    requires WellFormed(sch)
    requires s.oriDiff + StepFor(s.inversions, sch) <= MaxOriDiff
    ensures var r := Advance(s, 0, sch);
      && r.oriDiff == s.oriDiff + StepFor(s.inversions, sch)
      && r.history == 0
      && r.lastDirection == Up
      && (r.inversions == s.inversions + 1 <==> s.lastDirection == Down)
  {
  }

  /** An error that would pass the ceiling moves nothing: no clamp to the ceiling. */
  lemma IncorrectAboveCeiling(s: State, sch: Schedule)
    requires WellFormed(sch)
    requires s.oriDiff + StepFor(s.inversions, sch) > MaxOriDiff
    ensures var r := Advance(s, 0, sch);
      && r.oriDiff == s.oriDiff
      && r.history == s.history
      && r.lastDirection == s.lastDirection
      && r.inversions == s.inversions
  {
  }

  /** A correct response that does not complete a streak of three only extends the streak. */
  lemma CorrectWithinStreak(s: State, outcome: int, sch: Schedule)
    requires WellFormed(sch)
    requires outcome != 0 && s.history + 1 != 3
    ensures var r := Advance(s, outcome, sch);
      && r.history == s.history + 1
      && r.oriDiff == s.oriDiff
      && r.lastDirection == s.lastDirection
      && r.inversions == s.inversions
  {
  }

  /** The third correct response in a row lowers the difference by the step and resets the streak. */
  lemma CorrectCompletingStreak(s: State, outcome: int, sch: Schedule)
    requires WellFormed(sch)
    requires outcome != 0 && s.history == 2
    ensures var r := Advance(s, outcome, sch);
      && r.history == 0
      && r.oriDiff == s.oriDiff - StepFor(s.inversions, sch)
      && r.lastDirection == Down
      && (r.inversions == s.inversions + 1 <==> s.lastDirection == Up)
  {
  }

  /** Nothing bounds the difference from below: three correct responses can make it negative. */
  lemma NoFloor()
    ensures var sch := Schedule([4.0, 2.0, 1.0, 0.5], [2, 4, 8]);
      var s := State(3.0, 0, Down, 2, None);
      Advance(s, 1, sch).oriDiff == -1.0
  {
  }

  // ---------------------------------------------------------------------------
  // Laws over sequences of calls

  /**
   * 3-down rule: from an empty streak, three correct responses in a row lower the
   * difference by exactly one step (the one selected by the unchanged inversion
   * count) and leave the streak empty.
   */
  lemma ThreeDown(s: State, a: int, b: int, c: int, sch: Schedule)
    requires WellFormed(sch)
    requires s.history == 0 && a != 0 && b != 0 && c != 0
    ensures var r := Run(s, [a, b, c], sch);
      && r.oriDiff == s.oriDiff - StepFor(s.inversions, sch)
      && r.history == 0
      && r.lastDirection == Down
      && r.stepSize == Some(StepFor(s.inversions, sch))
  {
    var s1 := Advance(s, a, sch);
    var s2 := Advance(s1, b, sch);
    assert [a, b, c][1..] == [b, c];
    assert [b, c][1..] == [c];
    assert [c][1..] == [];
    assert Run(s2, [c], sch) == Run(Advance(s2, c, sch), [], sch);
    assert Run(s1, [b, c], sch) == Run(s2, [c], sch);
  }

  /** The ceiling holds over any run when it held at the start and steps are non-negative. */
  lemma {:induction false} RunKeepsCeiling(s: State, outcomes: seq<int>, sch: Schedule)
    requires WellFormed(sch) && NonNegativeSteps(sch)
    requires s.oriDiff <= MaxOriDiff
    ensures Run(s, outcomes, sch).oriDiff <= MaxOriDiff
    decreases |outcomes|
  {
    if |outcomes| > 0 {
      RunKeepsCeiling(Advance(s, outcomes[0], sch), outcomes[1..], sch);
    }
  }

  /** The streak counter stays in {0, 1, 2} over any run that starts there. */
  lemma {:induction false} RunKeepsHistory(s: State, outcomes: seq<int>, sch: Schedule)
    requires WellFormed(sch)
    requires 0 <= s.history <= 2
    ensures 0 <= Run(s, outcomes, sch).history <= 2
    decreases |outcomes|
  {
    if |outcomes| > 0 {
      RunKeepsHistory(Advance(s, outcomes[0], sch), outcomes[1..], sch);
    }
  }

  /** The inversion count never decreases and grows by at most one per call. */
  lemma {:induction false} RunInversionsMonotone(s: State, outcomes: seq<int>, sch: Schedule)
    requires WellFormed(sch)
    ensures s.inversions <= Run(s, outcomes, sch).inversions <= s.inversions + |outcomes|
    decreases |outcomes|
  {
    if |outcomes| > 0 {
      RunInversionsMonotone(Advance(s, outcomes[0], sch), outcomes[1..], sch);
    }
  }

  /** After at least one call the stored step size is one of the four configured sizes. */
  lemma {:induction false} RunStepSizeConfigured(s: State, outcomes: seq<int>, sch: Schedule)
    requires WellFormed(sch) && |outcomes| > 0
    ensures var r := Run(s, outcomes, sch);
      r.stepSize.Some? && r.stepSize.value in sch.stepSizes[..4]
    decreases |outcomes|
  {
    if |outcomes| > 1 {
      RunStepSizeConfigured(Advance(s, outcomes[0], sch), outcomes[1..], sch);
    }
  }

  /** Running over a concatenation is running over each part in turn. */
  lemma {:induction false} RunAppend(s: State, xs: seq<int>, ys: seq<int>, sch: Schedule)
    requires WellFormed(sch)
    ensures Run(s, xs + ys, sch) == Run(Run(s, xs, sch), ys, sch)
    decreases |xs|
  {
    if |xs| > 0 {
      assert (xs + ys)[1..] == xs[1..] + ys;
      RunAppend(Advance(s, xs[0], sch), xs[1..], ys, sch);
    } else {
      assert xs + ys == ys;
    }
  }

  /** A worked run with the ceiling of 30: an error at 27 with step 6 leaves the difference at 27. */
  lemma CeilingScenario()
    ensures var sch := Schedule([6.0, 4.0, 2.0, 1.0], [2, 4, 8]);
      var s := State(27.0, 0, Down, 0, None);
      Run(s, [0, 0, 1, 1, 1], sch) == State(21.0, 0, Down, 0, Some(6.0))
  {
    var sch := Schedule([6.0, 4.0, 2.0, 1.0], [2, 4, 8]);
    var s := State(27.0, 0, Down, 0, None);
    RunAppend(s, [0, 0], [1, 1, 1], sch);
    assert [0, 0] + [1, 1, 1] == [0, 0, 1, 1, 1];
    ThreeDown(Run(s, [0, 0], sch), 1, 1, 1, sch);
  }
}

=== FILE: test_block.dfy ===
/**
 * The staircase threading of the test phase: the block is seeded once, the
 * staircase advances on target trials only, every trial presents a deviation of
 * 0 or plus/minus the current difference, and every trial record carries the
 * staircase as it stands after that trial. The deviation itself is not saved.
 */
module TestBlock {
  import opened Wrappers
  import opened Staircase
  import opened Persistence

  /**
   * What one trial contributes to the staircase: the trial's `target` field, the
   * outcome its response was scored with, and the sign the random choice picked.
   */
  datatype TrialInput = TrialInput(target: int, outcome: int, positive: bool)

  /** The instruction screen shown before a test block. */
  datatype Instructions = TestStart | TestContinue(block: int, remaining: int)

  function TestInstructions(block: int, testBlocks: int): (ins: Instructions)
    ensures ins.TestStart? <==> block == 1
    ensures ins.TestContinue? ==> ins.block == block && ins.block + ins.remaining == testBlocks
  {
    if block == 1 then TestStart else TestContinue(block, testBlocks - block)
  }

  /** The staircase a block starts from: the initial one in block 1, the resumed one otherwise. */
  function Seed(block: int, participantId: string, store: Store, initial: State): (r: Result<State, LoadError>)
    ensures block == 1 ==> r == Success(initial)
    ensures block != 1 ==> r == LoadLastStaircase(store, participantId, block)
  {
    if block == 1 then Success(initial) else LoadLastStaircase(store, participantId, block)
  }

  /** The deviation added to the trailing orientation, from the staircase before the trial's update. */
  function Deviation(t: TrialInput, s: State): (d: real)
    ensures t.target == 0 ==> d == 0.0
    ensures t.target != 0 ==> (d == s.oriDiff || d == -s.oriDiff)
    ensures t.target != 0 && t.positive ==> d == s.oriDiff
  {
    if t.target == 0 then 0.0 else if t.positive then s.oriDiff else -s.oriDiff
  }

  /** The staircase after one trial: advanced with the trial's outcome exactly when `target == 1`. */
  function Update(s: State, t: TrialInput, sch: Schedule): State
    requires WellFormed(sch)
  {
    if t.target == 1 then Advance(s, t.outcome, sch) else s
  }

  /** The records of a block's trials, numbered from `first`, threading the staircase from `s`. */
  function Thread(s: State, trials: seq<TrialInput>, sch: Schedule, first: int): (recs: seq<TrialRecord>)
    requires WellFormed(sch)
    ensures |recs| == |trials|
    ensures forall i :: 0 <= i < |trials| ==>
      && recs[i].numTrial == first + i
      && recs[i].target == trials[i].target
      && recs[i].outcome == trials[i].outcome
    decreases |trials|
  {
    if |trials| == 0 then []
    else
      var t := trials[0];
      var next := Update(s, t, sch);
      [TrialRecord(first, t.target, t.outcome, next)] + Thread(next, trials[1..], sch, first + 1)
  }

  /**
   * The deviations the block's trials present, in trial order. They are drawn on
   * the screen but not saved in the trial records.
   */
  function Presented(s: State, trials: seq<TrialInput>, sch: Schedule): (ds: seq<real>)
    requires WellFormed(sch)
    ensures |ds| == |trials|
    ensures forall i :: 0 <= i < |trials| && trials[i].target == 0 ==> ds[i] == 0.0
    decreases |trials|
  {
    if |trials| == 0 then []
    else [Deviation(trials[0], s)] + Presented(Update(s, trials[0], sch), trials[1..], sch)
  }

  /** Reference definition: the staircase after a prefix of trials, trial by trial. */
  function Replay(s: State, trials: seq<TrialInput>, sch: Schedule): State
    requires WellFormed(sch)
    decreases |trials|
  {
    if |trials| == 0 then s else Replay(Update(s, trials[0], sch), trials[1..], sch)
  }

  /** The outcomes of the target trials, in trial order. */
  function TargetOutcomes(trials: seq<TrialInput>): (os: seq<int>)
    ensures |os| <= |trials|
  {
    if |trials| == 0 then []
    else (if trials[0].target == 1 then [trials[0].outcome] else []) + TargetOutcomes(trials[1..])
  }

  /**
   * One test block: no trials means nothing is seeded and nothing can fail;
   * otherwise the block is seeded at its first trial and threaded.
   */
  function TestPhase(block: int, participantId: string, store: Store, initial: State,
                     sch: Schedule, trials: seq<TrialInput>): (r: Result<seq<TrialRecord>, LoadError>)
    requires WellFormed(sch)
    ensures |trials| == 0 ==> r == Success([])
    ensures |trials| > 0 ==> (r.Success? <==> Seed(block, participantId, store, initial).Success?)
    ensures |trials| > 0 && r.Failure? ==> r.error == Seed(block, participantId, store, initial).error
    ensures r.Success? ==> |r.value| == |trials| && forall i :: 0 <= i < |trials| ==> r.value[i].numTrial == i
  {
    if |trials| == 0 then Success([])
    else
      match Seed(block, participantId, store, initial)
      case Failure(e) => Failure(e)
      case Success(seed) => Success(Thread(seed, trials, sch, 0))
  }

  /**
   * The test block followed by `save_block_data(..., "test", block)` as written:
   * a block saved into an existing file lands there as one nested element.
   */
  function TestPhaseAndSave(block: int, participantId: string, store: Store, initial: State,
                            sch: Schedule, trials: seq<TrialInput>): (r: Result<Store, LoadError>)
    requires WellFormed(sch)
    ensures var b := TestPhase(block, participantId, store, initial, sch, trials);
      && (r.Success? <==> b.Success?)
      && (r.Failure? ==> r.error == b.error)
    ensures r.Success? ==>
      var recs := TestPhase(block, participantId, store, initial, sch, trials).value;
      var path := BlockPath(participantId, "test", block);
      && r.value.Keys == store.Keys + {path}
      && (forall p :: p in store && p != path ==> r.value[p] == store[p])
      && (path !in store ==> r.value[path] == AsEntries(recs))
      && (path in store ==> r.value[path] == store[path] + [Nested(recs)])
  {
    match TestPhase(block, participantId, store, initial, sch, trials)
    case Failure(e) => Failure(e)
    case Success(recs) => Success(SaveBlockAsWritten(store, participantId, "test", block, recs))
  }

  /** The test block followed by the corrected save, which appends the block's records one by one. */
  function TestPhaseAndSaveCorrected(block: int, participantId: string, store: Store, initial: State,
                                     sch: Schedule, trials: seq<TrialInput>): (r: Result<Store, LoadError>)
    requires WellFormed(sch)
    ensures var b := TestPhase(block, participantId, store, initial, sch, trials);
      && (r.Success? <==> b.Success?)
      && (r.Failure? ==> r.error == b.error)
    ensures r.Success? ==>
      var recs := TestPhase(block, participantId, store, initial, sch, trials).value;
      var path := BlockPath(participantId, "test", block);
      && r.value.Keys == store.Keys + {path}
      && (forall p :: p in store && p != path ==> r.value[p] == store[p])
      && r.value[path] == (if path in store then store[path] else []) + AsEntries(recs)
  {
    match TestPhase(block, participantId, store, initial, sch, trials)
    case Failure(e) => Failure(e)
    case Success(recs) => Success(SaveBlock(store, participantId, "test", block, recs))
  }

  // ---------------------------------------------------------------------------

  lemma {:induction false} ReplayAppendOne(s: State, trials: seq<TrialInput>, t: TrialInput, sch: Schedule)
    requires WellFormed(sch)
    ensures Replay(s, trials + [t], sch) == Update(Replay(s, trials, sch), t, sch)
    decreases |trials|
  {
    if |trials| == 0 {
      assert trials + [t] == [t];
      assert [t][1..] == [];
    } else {
      assert (trials + [t])[1..] == trials[1..] + [t];
      ReplayAppendOne(Update(s, trials[0], sch), trials[1..], t, sch);
    }
  }

  /** Every record carries the staircase after its own trial. */
  lemma {:induction false} ThreadMatchesReplay(s: State, trials: seq<TrialInput>, sch: Schedule, first: int)
    requires WellFormed(sch)
    ensures var recs := Thread(s, trials, sch, first);
      forall i :: 0 <= i < |trials| ==>
        recs[i].staircase == Replay(s, trials[..i + 1], sch)
    decreases |trials|
  {
    if |trials| > 0 {
      var recs := Thread(s, trials, sch, first);
      var next := Update(s, trials[0], sch);
      var rest := trials[1..];
      ThreadMatchesReplay(next, rest, sch, first + 1);
      forall i | 0 <= i < |trials|
        ensures recs[i].staircase == Replay(s, trials[..i + 1], sch)
      {
        assert trials[..i + 1][1..] == rest[..i];
        if i > 0 {
          assert recs[i] == Thread(next, rest, sch, first + 1)[i - 1];
        }
      }
    }
  }

  /** Every trial presents the deviation computed from the staircase before that trial. */
  lemma {:induction false} PresentedMatchesReplay(s: State, trials: seq<TrialInput>, sch: Schedule)
    requires WellFormed(sch)
    ensures var ds := Presented(s, trials, sch);
      forall i :: 0 <= i < |trials| ==> ds[i] == Deviation(trials[i], Replay(s, trials[..i], sch))
    decreases |trials|
  {
    if |trials| > 0 {
      var ds := Presented(s, trials, sch);
      var next := Update(s, trials[0], sch);
      var rest := trials[1..];
      PresentedMatchesReplay(next, rest, sch);
      forall i | 0 <= i < |trials|
        ensures ds[i] == Deviation(trials[i], Replay(s, trials[..i], sch))
      {
        if i == 0 {
          assert trials[..0] == [];
        } else {
          assert trials[..i][1..] == rest[..i - 1];
          assert ds[i] == Presented(next, rest, sch)[i - 1];
        }
      }
    }
  }

  /**
   * Each record follows from the one before it: a target trial's record holds the
   * previous staircase advanced with its outcome, any other record repeats it.
   */
  lemma ThreadSteps(s: State, trials: seq<TrialInput>, sch: Schedule, first: int, i: int)
    requires WellFormed(sch)
    requires 0 <= i < |trials|
    ensures var recs := Thread(s, trials, sch, first);
      var before := if i == 0 then s else recs[i - 1].staircase;
      && (trials[i].target == 1 ==> recs[i].staircase == Advance(before, trials[i].outcome, sch))
      && (trials[i].target != 1 ==> recs[i].staircase == before)
      && Presented(s, trials, sch)[i] == Deviation(trials[i], before)
  {
    ThreadMatchesReplay(s, trials, sch, first);
    PresentedMatchesReplay(s, trials, sch);
    assert trials[..i + 1] == trials[..i] + [trials[i]];
    ReplayAppendOne(s, trials[..i], trials[i], sch);
    if i == 0 {
      assert trials[..0] == [];
    } else {
      assert trials[..i - 1 + 1] == trials[..i];
    }
  }

  /** Replaying a block is running the staircase over the outcomes of its target trials only. */
  lemma {:induction false} ReplayIsRunOverTargets(s: State, trials: seq<TrialInput>, sch: Schedule)
    requires WellFormed(sch)
    ensures Replay(s, trials, sch) == Run(s, TargetOutcomes(trials), sch)
    decreases |trials|
  {
    if |trials| > 0 {
      var t := trials[0];
      ReplayIsRunOverTargets(Update(s, t, sch), trials[1..], sch);
      if t.target == 1 {
        var os := [t.outcome] + TargetOutcomes(trials[1..]);
        assert TargetOutcomes(trials) == os;
        assert os[1..] == TargetOutcomes(trials[1..]);
      } else {
        assert TargetOutcomes(trials) == [] + TargetOutcomes(trials[1..]);
        assert [] + TargetOutcomes(trials[1..]) == TargetOutcomes(trials[1..]);
      }
    }
  }

  /** The last record of a block holds the staircase run over all its target outcomes. */
  lemma LastRecordIsRun(s: State, trials: seq<TrialInput>, sch: Schedule, first: int)
    requires WellFormed(sch) && |trials| > 0
    ensures Thread(s, trials, sch, first)[|trials| - 1].staircase == Run(s, TargetOutcomes(trials), sch)
  {
    ThreadMatchesReplay(s, trials, sch, first);
    assert trials[..|trials|] == trials;
    ReplayIsRunOverTargets(s, trials, sch);
  }

  /** In a block whose staircase starts under the ceiling, no record exceeds it. */
  lemma BlockKeepsCeiling(s: State, trials: seq<TrialInput>, sch: Schedule, first: int, i: int)
    requires WellFormed(sch) && NonNegativeSteps(sch)
    requires s.oriDiff <= MaxOriDiff
    requires 0 <= i < |trials|
    ensures Thread(s, trials, sch, first)[i].staircase.oriDiff <= MaxOriDiff
  {
    ThreadMatchesReplay(s, trials, sch, first);
    ReplayIsRunOverTargets(s, trials[..i + 1], sch);
    RunKeepsCeiling(s, TargetOutcomes(trials[..i + 1]), sch);
  }

  /**
   * Resume contract across blocks: after block b (b >= 1) is run for the first
   * time and saved, block b + 1 is seeded with exactly the staircase of block b's
   * last record.
   */
  lemma NextBlockResumes(block: int, participantId: string, store: Store, initial: State, initial': State,
                         sch: Schedule, trials: seq<TrialInput>)
    requires WellFormed(sch) && block >= 1 && |trials| > 0
    requires BlockPath(participantId, "test", block) !in store
    requires TestPhase(block, participantId, store, initial, sch, trials).Success?
    ensures var recs := TestPhase(block, participantId, store, initial, sch, trials).value;
      var store' := TestPhaseAndSave(block, participantId, store, initial, sch, trials).value;
      Seed(block + 1, participantId, store', initial') == Success(recs[|recs| - 1].staircase)
  {
    var recs := TestPhase(block, participantId, store, initial, sch, trials).value;
    FirstSaveThenResume(store, participantId, block + 1, recs);
  }

  /**
   * Running block b (b >= 1) again, when its file already exists, leaves the next
   * block unable to start: its resume finds a nested list where a record should be.
   */
  lemma RerunBlocksNextBlock(block: int, participantId: string, store: Store, initial: State, initial': State,
                             sch: Schedule, trials: seq<TrialInput>, next: seq<TrialInput>)
    requires WellFormed(sch) && block >= 1 && |next| > 0
    requires BlockPath(participantId, "test", block) in store
    requires TestPhase(block, participantId, store, initial, sch, trials).Success?
    ensures var store' := TestPhaseAndSave(block, participantId, store, initial, sch, trials).value;
      TestPhase(block + 1, participantId, store', initial', sch, next)
      == Failure(NotARecord(BlockPath(participantId, "test", block)))
  {
    var recs := TestPhase(block, participantId, store, initial, sch, trials).value;
    RerunBreaksResume(store, participantId, block + 1, recs);
    ResumeReadsSavedPath(participantId, block + 1);
  }

  /** With the corrected save, every run of block b (b >= 1) hands its last staircase to block b + 1. */
  lemma NextBlockResumesCorrected(block: int, participantId: string, store: Store, initial: State, initial': State,
                                  sch: Schedule, trials: seq<TrialInput>)
    requires WellFormed(sch) && block >= 1 && |trials| > 0
    requires TestPhase(block, participantId, store, initial, sch, trials).Success?
    ensures var recs := TestPhase(block, participantId, store, initial, sch, trials).value;
      var store' := TestPhaseAndSaveCorrected(block, participantId, store, initial, sch, trials).value;
      Seed(block + 1, participantId, store', initial') == Success(recs[|recs| - 1].staircase)
  {
    var recs := TestPhase(block, participantId, store, initial, sch, trials).value;
    SaveThenResume(store, participantId, block + 1, recs);
  }

  /**
   * Two consecutive blocks, the first run once, act as one staircase run over the
   * target outcomes of both: nothing (in particular the inversion count) is reset
   * between blocks.
   */
  lemma TwoBlocksAreOneRun(participantId: string, store: Store, initial: State, sch: Schedule,
                           trials1: seq<TrialInput>, trials2: seq<TrialInput>)
    requires WellFormed(sch) && |trials1| > 0 && |trials2| > 0
    requires BlockPath(participantId, "test", 1) !in store
    ensures var store1 := TestPhaseAndSave(1, participantId, store, initial, sch, trials1).value;
      var r2 := TestPhase(2, participantId, store1, initial, sch, trials2);
      && r2.Success?
      && r2.value[|trials2| - 1].staircase
         == Run(initial, TargetOutcomes(trials1) + TargetOutcomes(trials2), sch)
  {
    var recs1 := Thread(initial, trials1, sch, 0);
    var store1 := SaveBlockAsWritten(store, participantId, "test", 1, recs1);
    assert TestPhase(1, participantId, store, initial, sch, trials1) == Success(recs1);
    assert TestPhaseAndSave(1, participantId, store, initial, sch, trials1) == Success(store1);
    NextBlockResumes(1, participantId, store, initial, initial, sch, trials1);
    var mid := recs1[|recs1| - 1].staircase;
    assert Seed(2, participantId, store1, initial) == Success(mid);
    var recs2 := Thread(mid, trials2, sch, 0);
    assert TestPhase(2, participantId, store1, initial, sch, trials2) == Success(recs2);
    LastRecordIsRun(initial, trials1, sch, 0);
    LastRecordIsRun(mid, trials2, sch, 0);
    RunAppend(initial, TargetOutcomes(trials1), TargetOutcomes(trials2), sch);
  }
}

=== FILE: trials.dfy ===
/**
 * Trial generation: a weighted cross-product of visual and auditory stimulus
 * pairs, put in random order by a Fisher-Yates shuffle.
 */
module Trials {

  /** A leading stimulus: an orientation or tone frequency, or the neutral tag. */
  datatype Lead = Value(n: int) | Tag(name: string)

  /** One stimulus pair with its prediction class ("EXP", "UEX", "neutral") and repetition weight. */
  datatype Pair = Pair(lead: Lead, trailing: int, pred: string, weight: nat)

  /** A generated trial: the six fields every trial dictionary has. */
  datatype Trial = Trial(
    vLeading: Lead, vTrailing: int, vPred: string,
    aLeading: Lead, aTrailing: int, aPred: string)

  /** Visual pairs; `conditionA` is the first random choice of the generator. */
  function VisualPairs(conditionA: bool): (ps: seq<Pair>)
    ensures |ps| == 6
    ensures PredictiveLead(ps, Value(90), 0, 1) && PredictiveLead(ps, Value(0), 2, 3)
    ensures NeutralBalanced(ps, Tag("neutralV"), 4, 5)
    ensures DistinctPairs(ps)
  {
    (if conditionA then
       [Pair(Value(90), 135, "EXP", 3), Pair(Value(90), 45, "UEX", 1),
        Pair(Value(0), 45, "EXP", 3), Pair(Value(0), 135, "UEX", 1)]
     else
       [Pair(Value(90), 45, "EXP", 3), Pair(Value(90), 135, "UEX", 1),
        Pair(Value(0), 135, "EXP", 3), Pair(Value(0), 45, "UEX", 1)])
    + [Pair(Tag("neutralV"), 45, "neutral", 2), Pair(Tag("neutralV"), 135, "neutral", 2)]
  }

  /** Auditory pairs; `conditionA` is the second random choice of the generator. */
  function AuditoryPairs(conditionA: bool): (ps: seq<Pair>)
    ensures |ps| == 6
    ensures PredictiveLead(ps, Value(1000), 0, 1) && PredictiveLead(ps, Value(1600), 2, 3)
    ensures NeutralBalanced(ps, Tag("neutralA"), 4, 5)
    ensures DistinctPairs(ps)
  {
    (if conditionA then
       [Pair(Value(1000), 100, "EXP", 3), Pair(Value(1000), 160, "UEX", 1),
        Pair(Value(1600), 160, "EXP", 3), Pair(Value(1600), 100, "UEX", 1)]
     else
       [Pair(Value(1000), 160, "EXP", 3), Pair(Value(1000), 100, "UEX", 1),
        Pair(Value(1600), 100, "EXP", 3), Pair(Value(1600), 160, "UEX", 1)])
    + [Pair(Tag("neutralA"), 100, "neutral", 2), Pair(Tag("neutralA"), 160, "neutral", 2)]
  }

  /**
   * The lead of entries i and j is predictive: entry i is its expected pair of
   * weight 3, entry j its unexpected pair of weight 1, they end on different
   * trailing stimuli, and no other entry has that lead.
   */
  predicate PredictiveLead(ps: seq<Pair>, lead: Lead, i: int, j: int) {
    && 0 <= i < |ps| && 0 <= j < |ps|
    && ps[i].lead == lead && ps[i].pred == "EXP" && ps[i].weight == 3
    && ps[j].lead == lead && ps[j].pred == "UEX" && ps[j].weight == 1
    && ps[i].trailing != ps[j].trailing
    && forall k :: 0 <= k < |ps| && ps[k].lead == lead ==> k == i || k == j
  }

  /** Entries i and j are the neutral lead's two pairs, equally weighted, to different trailing stimuli. */
  predicate NeutralBalanced(ps: seq<Pair>, lead: Lead, i: int, j: int) {
    && 0 <= i < |ps| && 0 <= j < |ps| && i != j
    && ps[i].lead == lead && ps[j].lead == lead
    && ps[i].pred == "neutral" && ps[j].pred == "neutral"
    && ps[i].weight == ps[j].weight
    && ps[i].trailing != ps[j].trailing
    && forall k :: 0 <= k < |ps| && ps[k].lead == lead ==> k == i || k == j
  }

  /** No two entries describe the same stimulus pair. */
  predicate DistinctPairs(ps: seq<Pair>) {
    forall i, j :: 0 <= i < j < |ps| ==> !SamePair(ps[i], ps[j])
  }

  predicate SamePair(p: Pair, q: Pair) {
    p.lead == q.lead && p.trailing == q.trailing && p.pred == q.pred
  }

  function TotalWeight(ps: seq<Pair>): nat {
    if |ps| == 0 then 0 else ps[0].weight + TotalWeight(ps[1..])
  }

  /** Both pair lists weigh 12 in total (3 + 1 + 3 + 1 + 2 + 2). */
  lemma PairWeights(visualA: bool, auditoryA: bool)
    ensures TotalWeight(VisualPairs(visualA)) == 12
    ensures TotalWeight(AuditoryPairs(auditoryA)) == 12
  {
    SixWeights(VisualPairs(visualA));
    SixWeights(AuditoryPairs(auditoryA));
  }

  lemma SixWeights(ps: seq<Pair>)
    requires |ps| == 6
    ensures TotalWeight(ps) == ps[0].weight + ps[1].weight + ps[2].weight + ps[3].weight + ps[4].weight + ps[5].weight
  {
    assert TotalWeight(ps[6..]) == 0;
    assert TotalWeight(ps[5..]) == ps[5].weight + TotalWeight(ps[6..]);
    assert TotalWeight(ps[4..]) == ps[4].weight + TotalWeight(ps[5..]);
    assert TotalWeight(ps[3..]) == ps[3].weight + TotalWeight(ps[4..]);
    assert TotalWeight(ps[2..]) == ps[2].weight + TotalWeight(ps[3..]);
    assert TotalWeight(ps[1..]) == ps[1].weight + TotalWeight(ps[2..]);
    assert ps[0..] == ps;
  }

  function Combine(v: Pair, a: Pair): Trial {
    Trial(v.lead, v.trailing, v.pred, a.lead, a.trailing, a.pred)
  }

  function Repeat(t: Trial, n: nat): (r: seq<Trial>)
    ensures |r| == n
  {
    if n == 0 then [] else [t] + Repeat(t, n - 1)
  }

  lemma {:induction false} RepeatCount(t: Trial, n: nat, u: Trial)
    ensures multiset(Repeat(t, n))[u] == if u == t then n else 0
    decreases n
  {
    if n > 0 {
      RepeatCount(t, n - 1, u);
    }
  }

  /** All combinations of one visual pair with the auditory pairs, each repeated weight-product times. */
  function Row(v: Pair, auditory: seq<Pair>): seq<Trial> {
    if |auditory| == 0 then []
    else Repeat(Combine(v, auditory[0]), v.weight * auditory[0].weight) + Row(v, auditory[1..])
  }

  /** The weighted cross-product, in the generator's nested-loop order. */
  function CrossProduct(visual: seq<Pair>, auditory: seq<Pair>): seq<Trial> {
    if |visual| == 0 then []
    else Row(visual[0], auditory) + CrossProduct(visual[1..], auditory)
  }

  // ---------------------------------------------------------------------------
  // Size and multiplicities of the cross-product

  lemma {:induction false} RowSize(v: Pair, auditory: seq<Pair>)
    ensures |Row(v, auditory)| == v.weight * TotalWeight(auditory)
    decreases |auditory|
  {
    if |auditory| > 0 {
      RowSize(v, auditory[1..]);
      var w0 := auditory[0].weight;
      var rest := TotalWeight(auditory[1..]);
      assert v.weight * w0 + v.weight * rest == v.weight * (w0 + rest);
    }
  }

  /** The cross-product has (total visual weight) x (total auditory weight) trials. */
  lemma {:induction false} CrossProductSize(visual: seq<Pair>, auditory: seq<Pair>)
    ensures |CrossProduct(visual, auditory)| == TotalWeight(visual) * TotalWeight(auditory)
    decreases |visual|
  {
    if |visual| > 0 {
      RowSize(visual[0], auditory);
      CrossProductSize(visual[1..], auditory);
      SumTimes(visual[0].weight, TotalWeight(visual[1..]), TotalWeight(auditory));
    }
  }

  lemma SumTimes(a: nat, b: nat, c: nat)
    ensures a * c + b * c == (a + b) * c
  {
  }

  /** A row holds only combinations with its own visual pair. */
  lemma {:induction false} RowOtherVisual(v: Pair, auditory: seq<Pair>, t: Trial)
    requires t.vLeading != v.lead || t.vTrailing != v.trailing || t.vPred != v.pred
    ensures multiset(Row(v, auditory))[t] == 0
    decreases |auditory|
  {
    if |auditory| > 0 {
      RepeatCount(Combine(v, auditory[0]), v.weight * auditory[0].weight, t);
      RowOtherVisual(v, auditory[1..], t);
    }
  }

  /** A row holds no combination with an auditory pair it was not built from. */
  lemma {:induction false} RowOtherAuditory(v: Pair, auditory: seq<Pair>, a: Pair)
    requires forall k :: 0 <= k < |auditory| ==> !SamePair(auditory[k], a)
    ensures multiset(Row(v, auditory))[Combine(v, a)] == 0
    decreases |auditory|
  {
    if |auditory| > 0 {
      assert !SamePair(auditory[0], a);
      RepeatCount(Combine(v, auditory[0]), v.weight * auditory[0].weight, Combine(v, a));
      RowOtherAuditory(v, auditory[1..], a);
    }
  }

  lemma {:induction false} RowCount(v: Pair, auditory: seq<Pair>, j: int)
    requires DistinctPairs(auditory) && 0 <= j < |auditory|
    ensures multiset(Row(v, auditory))[Combine(v, auditory[j])] == v.weight * auditory[j].weight
    decreases |auditory|
  {
    var a := auditory[j];
    var rest := auditory[1..];
    RepeatCount(Combine(v, auditory[0]), v.weight * auditory[0].weight, Combine(v, a));
    if j == 0 {
      assert forall k :: 0 <= k < |rest| ==> !SamePair(rest[k], a) by {
        forall k | 0 <= k < |rest| ensures !SamePair(rest[k], a) {
          assert rest[k] == auditory[k + 1];
        }
      }
      RowOtherAuditory(v, rest, a);
    } else {
      assert !SamePair(auditory[0], a);
      assert Combine(v, auditory[0]) != Combine(v, a);
      RowCount(v, rest, j - 1);
    }
  }

  lemma {:induction false} CrossOtherVisual(visual: seq<Pair>, auditory: seq<Pair>, v: Pair, a: Pair)
    requires forall k :: 0 <= k < |visual| ==> !SamePair(visual[k], v)
    ensures multiset(CrossProduct(visual, auditory))[Combine(v, a)] == 0
    decreases |visual|
  {
    if |visual| > 0 {
      RowOtherVisual(visual[0], auditory, Combine(v, a));
      CrossOtherVisual(visual[1..], auditory, v, a);
    }
  }

  /**
   * Before the shuffle, each combination of a visual pair and an auditory pair
   * occurs exactly (visual weight) x (auditory weight) times.
   */
  lemma {:induction false} CrossProductCount(visual: seq<Pair>, auditory: seq<Pair>, i: int, j: int)
    requires DistinctPairs(visual) && DistinctPairs(auditory)
    requires 0 <= i < |visual| && 0 <= j < |auditory|
    ensures multiset(CrossProduct(visual, auditory))[Combine(visual[i], auditory[j])]
         == visual[i].weight * auditory[j].weight
    decreases |visual|
  {
    var v := visual[i];
    var a := auditory[j];
    var rest := visual[1..];
    if i == 0 {
      RowCount(v, auditory, j);
      assert forall k :: 0 <= k < |rest| ==> !SamePair(rest[k], v) by {
        forall k | 0 <= k < |rest| ensures !SamePair(rest[k], v) {
          assert rest[k] == visual[k + 1];
        }
      }
      CrossOtherVisual(rest, auditory, v, a);
    } else {
      assert !SamePair(visual[0], v);
      RowOtherVisual(visual[0], auditory, Combine(v, a));
      CrossProductCount(rest, auditory, i - 1, j);
    }
  }

  /** Every trial of the cross-product combines one visual pair with one auditory pair. */
  lemma {:induction false} CrossProductOnlyCombinations(visual: seq<Pair>, auditory: seq<Pair>, t: Trial)
    requires t in multiset(CrossProduct(visual, auditory))
    ensures exists i, j :: 0 <= i < |visual| && 0 <= j < |auditory| && t == Combine(visual[i], auditory[j])
    decreases |visual|
  {
    var rest := visual[1..];
    if t in multiset(Row(visual[0], auditory)) {
      var j := RowMember(visual[0], auditory, t);
      assert t == Combine(visual[0], auditory[j]);
    } else {
      CrossProductOnlyCombinations(rest, auditory, t);
      var i, j :| 0 <= i < |rest| && 0 <= j < |auditory| && t == Combine(rest[i], auditory[j]);
      assert rest[i] == visual[i + 1];
    }
  }

  lemma {:induction false} RowMember(v: Pair, auditory: seq<Pair>, t: Trial) returns (j: int)
    requires t in multiset(Row(v, auditory))
    ensures 0 <= j < |auditory| && t == Combine(v, auditory[j])
    decreases |auditory|
  {
    RepeatCount(Combine(v, auditory[0]), v.weight * auditory[0].weight, t);
    if t in multiset(Repeat(Combine(v, auditory[0]), v.weight * auditory[0].weight)) {
      j := 0;
    } else {
      var j' := RowMember(v, auditory[1..], t);
      j := j' + 1;
    }
  }

  // ---------------------------------------------------------------------------
  // The shuffle and the generator

  /** Exchanging two positions keeps the same trials. */
  lemma SwapKeepsTrials(s: seq<Trial>, i: int, j: int)
    requires 0 <= i < |s| && 0 <= j < |s|
    ensures multiset(s[i := s[j]][j := s[i]]) == multiset(s)
  {
    if i != j {
      var t := s[i := s[j]];
      assert multiset(t) == multiset(s) - multiset{s[i]} + multiset{s[j]};
      assert multiset(t[j := s[i]]) == multiset(t) - multiset{t[j]} + multiset{s[i]};
    }
  }

  /**
   * The Fisher-Yates shuffle of Python's `random.shuffle`: for i from the last
   * index down to 1, swap position i with a position j in [0, i]; `pick(i)`
   * stands for the random draw, taken modulo i + 1.
   */
  method Shuffle(s: seq<Trial>, pick: nat -> nat) returns (r: seq<Trial>)
    ensures |r| == |s|
    ensures multiset(r) == multiset(s)
  {
    r := s;
    var i := |s| - 1;
    while i >= 1
      invariant |r| == |s|
      invariant i < |s|
      invariant multiset(r) == multiset(s)
      decreases i
    {
      var j := pick(i) % (i + 1);
      SwapKeepsTrials(r, i, j);
      r := r[i := r[j]][j := r[i]];
      i := i - 1;
    }
  }

  /**
   * `generate_trials`: the two coin flips choose the visual and auditory mappings,
   * `pick` supplies the shuffle's draws. The result is a reordering of the
   * cross-product, 144 trials long.
   */
  method GenerateTrials(visualA: bool, auditoryA: bool, pick: nat -> nat) returns (trials: seq<Trial>)
    ensures multiset(trials) == multiset(CrossProduct(VisualPairs(visualA), AuditoryPairs(auditoryA)))
    ensures |trials| == 144
  {
    var visual := VisualPairs(visualA);
    var auditory := AuditoryPairs(auditoryA);
    var ordered := CrossProduct(visual, auditory);
    CrossProductSize(visual, auditory);
    PairWeights(visualA, auditoryA);
    trials := Shuffle(ordered, pick);
  }

  /** In every generated block each combination occurs exactly weight-product times. */
  lemma GeneratedCounts(visualA: bool, auditoryA: bool, trials: seq<Trial>, i: int, j: int)
    requires multiset(trials) == multiset(CrossProduct(VisualPairs(visualA), AuditoryPairs(auditoryA)))
    requires 0 <= i < 6 && 0 <= j < 6
    ensures var v := VisualPairs(visualA)[i];
      var a := AuditoryPairs(auditoryA)[j];
      multiset(trials)[Combine(v, a)] == v.weight * a.weight
  {
    CrossProductCount(VisualPairs(visualA), AuditoryPairs(auditoryA), i, j);
  }
}

=== FILE: wrappers.dfy ===
/** Option and Result datatypes used to model Python's `None` and raised exceptions. */
module Wrappers {

  /** A value that may be absent (Python `None`). */
  datatype Option<+T> = None | Some(value: T)

  /** Either a value or the error the source would raise instead of returning. */
  datatype Result<+R, +E> = Success(value: R) | Failure(error: E) {

    predicate IsFailure() {
      Failure?
    }

    function PropagateFailure<U>(): Result<U, E>
      requires Failure?
    {
      Failure(error)
    }

    function Extract(): R
      requires Success?
    {
      value
    }
  }
}
